=== FILE: README.md ===
# Path tracer: command line, renderer loop and vector algebra

A model of the parts of a small Monte Carlo path tracer that are plain
logic rather than physics:

- `main`'s handling of the command line. This covers `getFlagValue` for
  `--key=value` and `--key value`, and `parseVec3`, which reads "x,y,z"
  vectors with `strtod`. It also covers the sample-count loop
  (`--samples=N`, `--samples N`, or an all-digit positional argument), the
  camera overrides with their fallback to the defaults, the preset table and
  mesh-path resolution, and the hours/minutes/seconds split of the elapsed
  time;
- the renderer:
  - `clamp` and `toInt`;
  - the per-row erand48 seed;
  - the row-major pixel index;
  - the per-pixel sample loop and its average;
  - the independence of rows under the dynamic parallel schedule;
  - the throttled progress line;
  - the RGBA byte buffer that `save_image` hands to the PNG encoder;
- the `Vec` value type: the constructor, the const `operator[]`, `+`, `-`,
  `*`, `mult`, `dot`, `%` and `cross`.

Modules follow the source:

| Module | File | Contents |
|---|---|---|
| `Vector` | `vector.dfy` | `src/vector.h` |
| `CString` | `cstring.dfy` | The C library functions the source relies on: `strncmp` prefixes, `strspn`, `tolower`, `atoi` and `strtod` |
| `Flags`, `VecParse`, `Samples`, `Mesh`, `Launch` | `flags.dfy`, `vecparse.dfy`, `samples.dfy`, `mesh.dfy`, `launch.dfy` | `src/main.cpp` |
| `Tone`, `Render`, `Image` | `tone.dfy`, `render.dfy`, `image.dfy` | `src/renderer.cpp` |

`argv` is a `seq<string>` that includes the program name at index 0. A null
`const char*` is `Option.None`. C strings carry no terminator. The C code works on bytes, while the model's strings are
sequences of characters. The two agree for valid UTF-8 text, since the
code only tests ASCII characters (flag keys, digits, white space, letters,
',', '.', '-', '/'); an argument that is not valid UTF-8 cannot be
represented.

Doubles are modelled as exact reals. Hence `1./samples` times the sum is the
exact mean. The camera followed by the scene (`get_ray`, then `trace_ray`)
is one abstract `Render.Sampler` function. It maps the pixel, the jitter flag
and the current seed to a radiance value and the advanced seed.

Three points about the command line, as the code behaves:

- Any argument made only of digits counts as a positional sample count.
  This includes the empty argument and `0`, and both give 1 sample
  (`Samples.EmptyArgumentGivesOne`).
- A malformed sample count produces no warning. `atoi` reads optional
  white space, a sign and the leading digits, and gives 0 when there are
  none. An out-of-range value wraps as described under "Left out"
  (`CString.Atoi`). The clamp to at least 1 follows, so `--samples=-5`
  gives 1 (`Samples.NegativeAssignedCountGivesOne`).
- Camera-flag warnings exist only when the build defines
  `EXPERIMENTAL_CAMERA_CLI`. This is `Launch.Configure`'s `cameraCli`
  parameter.

## Model

| member | source | states |
|---|---|---|
| Vector.IndexDeterminesVec | src/vector.h:24-29 | Two vectors are equal exactly when the const `operator[]` reads the same at every index |
| Vector.IndexOfConstructor | src/vector.h:12 | The constructor's arguments are read back at indices 0, 1 and 2; the default-constructed vector reads 0 everywhere |
| Vector.Add | src/vector.h:32 | Every index of the sum is the sum of the operands' values at that index |
| Vector.Sub | src/vector.h:33 | Componentwise difference, and adding `b` back restores `a` |
| Vector.Scale | src/vector.h:34 | Every index is scaled by the scalar |
| Vector.Mult | src/vector.h:36 | Every index is the product of the operands' values at that index |
| Vector.Dot | src/vector.h:38 | The sum of the products of the indexed components |
| Vector.Cross | src/vector.h:40 | The cross product is orthogonal to both operands (zero dot product with each); which vector it is is fixed by `Vector.CrossTriple` and `Vector.CrossByTriple` |
| Vector.CrossOp | src/vector.h:39 | `operator%` is the same function as `cross` |
| Vector.AddZero | src/vector.h:12 | The default-constructed vector is the identity of `+` |
| Vector.DotSymmetric | src/vector.h:38 | `dot` is symmetric |
| Vector.CrossTriple | src/vector.h:40 | `dot(cross(a, b), c)` is the determinant of `a`, `b` and `c` for every `c` |
| Vector.CrossByTriple | src/vector.h:40 | A vector whose dot product with every `c` is the determinant of `a`, `b`, `c` is `cross(a, b)`: the triple product pins the cross product down |
| Vector.CrossAntiCommutative | src/vector.h:39-40 | `cross(a, b)` is `cross(b, a) * -1` |
| CString.DigitSpan | src/main.cpp:92 | `strspn(a, "0123456789")`: the length of the longest all-digit prefix — every character before it is a digit and the one at it is not |
| CString.SpanCoversAllIffDigits | src/main.cpp:92 | `strspn == strlen` holds exactly when the whole argument is digits (the empty argument included) |
| CString.ToLower | src/main.cpp:175 | Same length, no upper-case letter left, every upper-case letter lowered by 32 and every other character unchanged |
| CString.ToLowerIdempotent | src/main.cpp:175 | Lowering twice is lowering once |
| CString.WrapInt32 | src/main.cpp:79 | The cast to `int` lands in the 32-bit range, is the identity inside it and preserves the value modulo 2^32 |
| CString.Atoi | src/main.cpp:79 | `atoi` always yields a 32-bit `int` |
| CString.AtoiOfDigits | src/main.cpp:93 | An all-digit token whose value fits in an `int` is read as its decimal value; the empty token is read as 0 |
| CString.AtoiNatText | src/main.cpp:79 | Round trip: `atoi` of the decimal text of any `int`-sized natural is that natural |
| CString.AtoiNegatedNatText | src/main.cpp:79 | `atoi` reads '-' followed by the decimal text of `n` as `-n`, for every `n` down to `INT_MIN` |
| CString.NatTextValue | src/main.cpp:93 | The decimal text of `n` denotes `n` |
| CString.Strtod | src/main.cpp:45-52 | A successful `strtod` ends strictly after its start and within the text |
| CString.StrtodSkipsSpaces | src/main.cpp:45 | Reading from `p` equals reading from the first non-space character after `p` |
| CString.FractionOfDigits | src/main.cpp:45-52 | The fraction `0.d` read from the digits `d` is the integer `d` over `10^|d|` |
| CString.ReadNumberDecimal | src/main.cpp:45-52 | An optional '-', the decimal text of `m`, a '.' and digits `f`, not followed by anything that continues a number, read as `±(m + 0.f)` and end right after `f` |
| CString.StrtodReadsDecimal | src/main.cpp:45-52 | The same after any run of white space |
| CString.ReadNumberText | src/main.cpp:45-52 | Any text of the form `[+|-] digits [. digits]` with at least one digit, leading zeros and an empty integer or fraction part included, not followed by anything that continues a number, reads as the integer digits' value plus the fraction, negated after '-', and ends right after the text |
| CString.StrtodReadsText | src/main.cpp:45-52 | The same after any run of white space |
| CString.StrtodPlusLeadingZeros | src/main.cpp:45-52 | "+007" reads as 7 and is consumed whole |
| CString.StrtodNoIntegerPart | src/main.cpp:45-52 | ".5" reads as 0.5 |
| CString.StrtodNoFractionDigits | src/main.cpp:45-52 | "5." reads as 5, the point consumed |
| CString.StrtodReadsIntText | src/main.cpp:45-52 | `strtod` over the decimal text of any integer, after spaces, reads that integer and ends right after its text |
| CString.StrtodAgrees | src/main.cpp:45-52 | `strtod` gives the same number on any text that agrees from the start position up to the end of the number and does not continue it there |
| CString.StrtodOfIntText | src/main.cpp:45-52 | Round trip: `strtod` over the decimal text of any integer reads that integer and consumes the whole text |
| Flags.FlagValueFrom | src/main.cpp:19-30 | No value exactly when no index from `i` on matches either form; otherwise the value is that of the first matching index |
| Flags.GetFlagValue | src/main.cpp:17-31 | Null exactly when no argument after the program name matches; otherwise the first match's value, `key=value` tried before `key value` |
| Flags.FirstMatchWins | src/main.cpp:19-29 | A match at `j` with no match before it determines the result |
| Flags.FlagValueFromSuffix | src/main.cpp:19-29 | The scan from `i` depends only on the arguments from `i` on |
| Flags.IgnoresProgramName | src/main.cpp:19 | Replacing `argv[0]` never changes the result |
| Flags.TrailingBareKeyNotMatched | src/main.cpp:26-28 | A bare key in the last position has no value to take; with no earlier match the result is null |
| VecParse.CommasToSpaces | src/main.cpp:38-41 | The copy has the same length, contains no comma, turns each comma into a space and keeps every other character |
| VecParse.ParseVec3Into | src/main.cpp:35-55 | Returns true exactly when three numbers are read, in which case `out` holds them; on false `out` is unchanged |
| VecParse.CommaActsAsSpace | src/main.cpp:39-41 | A ',' and a ' ' are interchangeable anywhere in the text |
| VecParse.ScanAgrees | src/main.cpp:43-53 | The three successive reads give the same vector on any text that agrees up to the end of the third number and does not continue it there |
| VecParse.ScanIgnoresTrailingText | src/main.cpp:43-53 | After the separators are normalised, text after the third number that does not start with a digit, '.', 'e', 'E', 'x' or 'X' does not change the three reads |
| VecParse.ParseIgnoresTrailingText | src/main.cpp:35-55 | `parseVec3` ignores any text after the third number that does not continue it (text that does not start with a digit, '.', 'e', 'E', 'x' or 'X') |
| VecParse.ScanIntTriple | src/main.cpp:43-53 | The three reads over "a b c", the space-separated texts of three integers, give `Vec(a, b, c)` and consume the whole text |
| VecParse.ParseIntTriple | src/main.cpp:35-55 | Round trip: "a,b,c" written from any three integers parses back to `Vec(a, b, c)` |
| VecParse.ParseDocumentedExample | src/main.cpp:33-55 | The documented input "1.0, -2.5, 3" parses to `Vec(1, -2.5, 3)` |
| Samples.AtLeastOne | src/main.cpp:80 | The clamp sets every count below 1 to exactly 1 and leaves counts from 1 up unchanged |
| Samples.SampleCountFrom | src/main.cpp:74-98 | Between 1 and `INT_MAX`; the default 4 when no argument from `i` on has one of the three forms; otherwise the clamped `atoi` of the first such argument's text |
| Samples.SampleCount | src/main.cpp:70-98 | The same, scanning from the argument after the program name |
| Samples.PositionalIffAllDigits | src/main.cpp:92 | An argument not in flag form counts as positional exactly when it is all digits |
| Samples.LaterArgumentsIgnored | src/main.cpp:81-96 | The `break`: once an argument decides, appending more arguments changes nothing |
| Samples.AssignedCountRoundTrip | src/main.cpp:78-81 | `--samples=N` with N's decimal text gives N |
| Samples.PositionalCountRoundTrip | src/main.cpp:92-96 | A positional decimal N gives N |
| Samples.NegativeAssignedCountGivesOne | src/main.cpp:78-81 | `--samples=-N`, for any `N` up to 2^31, gives 1: `atoi` reads `-N` and the clamp raises it to 1 |
| Samples.TrailingFlagKeepsDefault | src/main.cpp:85-89 | A trailing bare `--samples` keeps the default 4 |
| Samples.EmptyArgumentGivesOne | src/main.cpp:92-94 | An empty argument counts as positional and gives 1 |
| Mesh.ObjPath | src/main.cpp:164-169 | Non-empty and ends with the value; equals the value exactly when it starts with '/' or '.'; otherwise it is the asset directory, a '/' and the value, and nothing more |
| Mesh.PresetChoice | src/main.cpp:171-190 | The path is always the asset directory plus one of the preset files; a warning is raised exactly when the lowered name is non-empty and not a preset |
| Mesh.ResolveMesh | src/main.cpp:160-191 | Non-empty; with `--obj`, the `--obj` path and no warning; otherwise, for a `--mesh` name that lowers to a preset, that preset's file with no warning, and for a missing or unknown name `dragon2.obj`, reporting the lowered name when it is non-empty |
| Mesh.KnownPresetSelected | src/main.cpp:178-181 | A preset name in any letter case selects its file, with no warning |
| Mesh.FallbackToDragon2 | src/main.cpp:182-190 | An unknown or missing name gives `dragon2.obj`; only a non-empty unknown name is reported, in lower case |
| Mesh.PresetCaseInsensitive | src/main.cpp:175 | Names equal up to letter case choose the same mesh |
| Mesh.ObjTakesPrecedence | src/main.cpp:164-170 | With `--obj` present, no `--mesh` value has any effect |
| Mesh.LucyExample | src/main.cpp:152-181 | `--mesh=LUCY` resolves to `../obj/lucy01.obj` |
| Launch.CameraOverride | src/main.cpp:109-124 | Warns exactly when the flag is present but its value does not parse, naming the flag and the text; the value is the parsed vector when there is one, the default otherwise |
| Launch.Configure | src/main.cpp:70-191 | The sample count is the loop's result and at least 1; with camera flags enabled a parsable camera value is used and an unparsable or missing one keeps the default, and without them the defaults hold; the mesh path is the resolved mesh path; the warnings are, in order, one for each present but unparsable camera flag (only with camera flags enabled) and one for an unknown mesh name |
| Launch.TruncateToInt | src/main.cpp:207 | `(int)diff` truncates toward zero |
| Launch.CDiv | src/main.cpp:207-208 | C's `/` for a positive divisor rounds toward zero: the remainder lies in `[0, b)` for a non-negative dividend and in `(-b, 0]` for a negative one |
| Launch.SplitElapsed | src/main.cpp:206-209 | Hours, minutes and seconds add back up to the truncated seconds; for non-negative time they are the canonical split with minutes and seconds in 0..59; for negative time all three are non-positive |
| Tone.Clamp | src/renderer.cpp:15 | The result lies in [0, 1], is `x` inside it, 0 below it and 1 above it |
| Tone.ClampIdempotent | src/renderer.cpp:15 | Clamping twice is clamping once |
| Tone.ToInt | src/renderer.cpp:17 | A byte; 0 at or below 0, 255 at or above 1; otherwise the nearest integer to 255·clamp(x), with halves rounded up |
| Tone.ToIntMonotone | src/renderer.cpp:17 | Monotone: a larger channel value never gives a smaller byte |
| Tone.ToIntOfLevel | src/renderer.cpp:17 | Round trip: the channel value k/255 converts back to byte k |
| Render.SeedWord | src/renderer.cpp:39-41 | The `unsigned` multiply-add with 32-bit wrap-around, masked to 16 bits, is the mathematical `y·k + c` modulo 2^16 |
| Render.RowSeed | src/renderer.cpp:38-42 | The row seed is `(9781y+1, 6271y+2, 151y+3)` modulo 2^16, each word a valid `unsigned short` |
| Render.RowSeedPeriodic | src/renderer.cpp:38-42 | Row seeds repeat with period 65536 |
| Render.PixelIndex | src/renderer.cpp:55 | The slot of a pixel of row `y` lies in `[y·width, (y+1)·width)` |
| Render.PixelIndexInBuffer | src/renderer.cpp:22 | Every pixel's slot lies inside the `width·height` buffer |
| Render.PixelIndexInjective | src/renderer.cpp:55 | Distinct pixels have distinct slots |
| Render.PixelOfIndex | src/renderer.cpp:55 | Every slot belongs to the pixel `(k mod width, k div width)` |
| Render.Draws | src/renderer.cpp:50-53 | The sample loop: one draw per iteration; jitter exactly on iterations after the first; the seed threads from draw to draw; each draw is the sampler's answer |
| Render.AverageOfConstant | src/renderer.cpp:48-55 | When every sample returns `v`, the stored pixel is `v` |
| Render.AverageWithin | src/renderer.cpp:48-55 | The stored pixel lies within the bounds of its samples, channel by channel |
| Render.SumChannel | src/renderer.cpp:48-53 | Channel `c` of the running sum `col` is the sum of the samples' channel `c` |
| Render.RowRuns | src/renderer.cpp:47-56 | Pixels of a row start from the seed the previous pixel left behind, the first from the row seed |
| Render.RowOnlyOnItsPixels | src/renderer.cpp:35-56 | Row `y` depends only on what the sampler answers for the pixels of row `y`: two samplers that agree on that row give the same row, so the rows of the parallel loop do not interact |
| Render.Flatten | src/renderer.cpp:55 | Rows of equal width laid end to end: the slot `y·width + x` holds element `x` of row `y` |
| Render.Image | src/renderer.cpp:35-56 | The buffer has `width·height` slots and the slot of `(x, y)` holds pixel `x` of row `y` |
| Render.WriteRow | src/renderer.cpp:55 | Storing a row changes exactly that row's slots |
| Render.RunRows | src/renderer.cpp:34-56 | After the rows in `order` finish, in any order, each of their slots holds its row's pixel and every other slot is still `Vec()` |
| Render.AnyScheduleGivesImage | src/renderer.cpp:34-56 | Any completion order that covers all rows leaves the same buffer as the sequential loop |
| Render.ProgressLogSpec | src/renderer.cpp:60-80 | Taken in counter order, the progress lines have increasing counts, come only for counts the throttle lets through, and only the final row's line ends with a newline |
| Render.ProgressComplete | src/renderer.cpp:63 | Every count the throttle lets through gets its line |
| Render.ProgressCount | src/renderer.cpp:63 | There are `height/3` lines, plus one when `height` is not a multiple of 3 |
| Render.ProgressFirst | src/renderer.cpp:63 | The first progress line comes within the first three rows |
| Render.ProgressGaps | src/renderer.cpp:63 | Consecutive progress lines are at most three rows apart |
| Render.ProgressIncreasing | src/renderer.cpp:63 | In counter order the counts on the progress lines strictly increase, so no count is reported twice |
| Render.LastRowReports | src/renderer.cpp:63-77 | The final row always reports; its line is the last in counter order and the only one ending with a newline |
| Image.EncodedPixel | src/renderer.cpp:92-97 | Four bytes per pixel in buffer order: the bytes at `4i .. 4i+3` are `toInt` of pixel `i`'s x, y and z, then 255 |
| Image.EncodeAppend | src/renderer.cpp:92-97 | Encoding distributes over concatenation |
| Image.SaveImageBuffer | src/renderer.cpp:88-97 | The buffer holds exactly `4·width·height` bytes, four per pixel of the image; what those bytes are is `Image.SavedPixel` |
| Image.SavedPixel | src/renderer.cpp:88-97 | For every pixel `(x, y)` of the image, the four bytes at `4·(y·width+x)` are `toInt` of its three channels followed by 255 |
| Image.DecodeEncode | src/renderer.cpp:93-96 | Round trip: pixels whose channels are byte levels survive encoding and decoding |
| Image.EncodeDecode | src/renderer.cpp:93-96 | Round trip: opaque RGBA bytes survive decoding and re-encoding |
| Image.QuantiseIdempotent | src/renderer.cpp:93-96 | Re-encoding decoded output reproduces the same bytes |

## Left out

- `norm`, `mag` and `operator/` of `Vec` are not modelled. They need square
  roots and the `float` division.
- The non-const `operator[]` is not modelled. It returns a reference into
  the vector or a shared static dummy, which is aliasing with no value
  semantics.
- Floating point is exact real arithmetic. Rounding, infinities and NaN
  are not modelled. For example, `clamp` of NaN returning NaN is not
  modelled.
- `CString.Strtod` reads only `[sign] digits [. digits]` after white space.
  It does not model exponents, hexadecimal floats, `inf`, `nan` or the
  locale's decimal point. A vector written with an exponent therefore
  parses differently here. The lemmas about text that follows a number
  (`CString.ContinuesNumber`) take any following 'e', 'E', 'x' or 'X' as
  possibly part of the number and make no claim about such text.
- `CString.Atoi` models `atoi` as `(int)strtol(s, NULL, 10)`, as glibc and
  the BSD libc define it. Out-of-range values saturate to 64 bits, and the
  cast then keeps the low 32 bits. The C standard leaves this overflow
  undefined.
- `Render.PixelIndex` uses unbounded integers. The 32-bit `int` product
  `y*width + x` cannot overflow for the 1280×720 camera.
- The camera (`get_ray`) and the scene integrator (`trace_ray`) are the
  abstract `Render.Sampler`. The erand48 generator inside them is part of
  that parameter, and the ray physics belongs to other parts of the program.
- `render` with fewer than one sample is not modelled, since `1./0` is not
  a real. `main` always clamps the count to at least 1
  (`Launch.Configure`).
- OpenMP threads are not modelled as such. Rows are independent, and any
  completion order is modelled by `Render.RunRows`. The atomic counter
  values `1..height` are modelled by `Render.ProgressLog`. The critical
  section and `fflush` are not modelled.
- Render.ProgressLog: lists the progress lines in counter order. A thread
  takes its count from the atomic `fetch_add` before it enters the critical
  section, so threads can print their lines in another order. The printed
  order, and which line is printed last, are not modelled.
- The progress line's fraction, elapsed time and ETA are not modelled. They
  come from the steady clock and only affect the printed text.
- The clock in `main` (`time`, `difftime`) is the `diff` parameter of
  `Launch.SplitElapsed`. The final `printf` is not modelled.
- Launch.TruncateToInt: does not model `(int)diff` for a `diff` outside the
  `int` range, which is undefined behaviour in C; an elapsed time that long
  does not occur.
- The PNG encoding (`lodepng::encode`) and the file write are not modelled.
  Neither is the encoder error message. `save_image` is modelled up to the
  byte buffer it hands over.
- Heap ownership is not modelled. This covers `new Vec[...]`, which is
  `Render.Blank`, and the scene objects `main` allocates. Building the scene
  and camera is not modelled.
- The text of the `stderr` warnings is not modelled. They are
  `Launch.Diagnostic` values carrying the flag and the offending text or
  key.
- `EXPERIMENTAL_CAMERA_CLI` is the `cameraCli` parameter, and `ASSET_DIR`
  is the `assetDir` parameter (default `Mesh.DefaultAssetDir`).

=== FILE: cstring.dfy ===
/**
 * The C library text routines the command-line code relies on: the
 * `strncmp`/`strcmp` tests, `strspn` over the decimal digits, `tolower` in
 * the "C" locale, `atoi`, and `strtod` restricted to plain decimal numbers.
 * A C string is modelled by its characters up to, not including, the
 * terminating NUL.
 */
module CString {
  import opened Options

  const MaxInt32: int := 0x7FFF_FFFF
  const MinInt32: int := -0x8000_0000
  const MaxInt64: int := 0x7FFF_FFFF_FFFF_FFFF
  const MinInt64: int := -0x8000_0000_0000_0000

  predicate IsDigit(c: char) { '0' <= c <= '9' }

  /**
   * A character that `strtod` may take as part of the number it has just
   * read: a digit, the decimal point, an exponent marker, or the `x` of a
   * hexadecimal prefix after a leading `0`.
   */
  predicate ContinuesNumber(c: char) {
    IsDigit(c) || c == '.' || c == 'e' || c == 'E' || c == 'x' || c == 'X'
  }

  /** `isspace` in the "C" locale. */
  predicate IsSpace(c: char) {
    c == ' ' || c == '\t' || c == '\n' || c == '\U{000B}' || c == '\U{000C}' || c == '\r'
  }

  predicate AllDigits(s: string) {
    forall i :: 0 <= i < |s| ==> IsDigit(s[i])
  }

  /** `strncmp(a, key, strlen(key)) == 0 && a[strlen(key)] == '='`: `a` is `key=` followed by anything. */
  predicate IsAssignmentOf(a: string, key: string) {
    |key| < |a| && a[..|key|] == key && a[|key|] == '='
  }

  /** `strncmp(a, p, strlen(p)) == 0`: `a` starts with `p`. */
  predicate HasPrefix(a: string, p: string) {
    |p| <= |a| && a[..|p|] == p
  }

  /** `strspn(s, "0123456789")`: the length of the leading run of digits. */
  function DigitSpan(s: string): (n: nat)
    ensures n <= |s|
    ensures forall i :: 0 <= i < n ==> IsDigit(s[i])
    ensures n < |s| ==> !IsDigit(s[n])
  {
    if |s| == 0 || !IsDigit(s[0]) then 0 else 1 + DigitSpan(s[1..])
  }

  /** The positional test `strspn(s, digits) == strlen(s)` holds exactly for all-digit strings, the empty one included. */
  lemma SpanCoversAllIffDigits(s: string)
    ensures DigitSpan(s) == |s| <==> AllDigits(s)
  {
  }

  /** `tolower` in the "C" locale: only 'A'..'Z' change. */
  function ToLowerChar(c: char): char {
    if 'A' <= c <= 'Z' then (c as int + 32) as char else c
  }

  predicate IsUpper(c: char) { 'A' <= c <= 'Z' }

  /** Lower-casing a string in place, character by character. */
  function ToLower(s: string): (t: string)
    ensures |t| == |s|
    ensures forall i :: 0 <= i < |s| ==> !IsUpper(t[i])
    ensures forall i :: 0 <= i < |s| && !IsUpper(s[i]) ==> t[i] == s[i]
    ensures forall i :: 0 <= i < |s| && IsUpper(s[i]) ==> t[i] as int == s[i] as int + 32
  {
    seq(|s|, i requires 0 <= i < |s| => ToLowerChar(s[i]))
  }

  lemma ToLowerIdempotent(s: string)
    ensures ToLower(ToLower(s)) == ToLower(s)
  {
  }

  /** The value of a decimal digit character. */
  function DigitValue(c: char): int {
    c as int - '0' as int
  }

  function DigitChar(d: nat): (c: char)
    requires d < 10
    ensures IsDigit(c) && DigitValue(c) == d
  {
    ('0' as int + d) as char
  }

  /** The decimal value of a digit string; the empty string is 0. */
  function DigitsValue(s: string): int {
    if |s| == 0 then 0 else 10 * DigitsValue(s[..|s| - 1]) + DigitValue(s[|s| - 1])
  }

  lemma {:induction false} DigitsValueNatural(s: string)
    requires AllDigits(s)
    ensures 0 <= DigitsValue(s)
  {
    if |s| > 0 {
      DigitsValueNatural(s[..|s| - 1]);
      assert IsDigit(s[|s| - 1]);
    }
  }

  /** Shortest decimal text of a natural number. */
  function NatText(n: nat): (s: string)
    ensures 0 < |s|
  {
    if n < 10 then [DigitChar(n)] else NatText(n / 10) + [DigitChar(n % 10)]
  }

  /** The decimal text of a natural is made of digits. */
  lemma {:induction false} NatTextDigits(n: nat)
    ensures AllDigits(NatText(n))
  {
    if n >= 10 {
      NatTextDigits(n / 10);
      var t := NatText(n);
      assert t == NatText(n / 10) + [DigitChar(n % 10)];
      assert forall i :: 0 <= i < |t| - 1 ==> t[i] == NatText(n / 10)[i];
    }
  }

  /** Decimal text of an integer: a negative number is '-' followed by the text of its magnitude. */
  function IntText(n: int): (s: string)
    ensures 0 < |s|
    decreases if n < 0 then 1 else 0
  {
    if n < 0 then "-" + IntText(-n) else NatText(n)
  }

  /** The decimal text of an integer is an optional '-' followed by digits. */
  lemma IntTextShape(n: int)
    ensures var s := IntText(n);
      && (s[0] == '-' || IsDigit(s[0]))
      && (forall i :: 0 < i < |s| ==> IsDigit(s[i]))
  {
    if n < 0 {
      NatTextDigits(-n);
      assert IntText(n) == "-" + NatText(-n);
    } else {
      NatTextDigits(n);
    }
  }

  lemma {:induction false} NatTextValue(n: nat)
    ensures DigitsValue(NatText(n)) == n
  {
    if n >= 10 {
      var s := NatText(n);
      assert s[..|s| - 1] == NatText(n / 10);
      NatTextValue(n / 10);
    }
  }

  /** First position at or after `p` that is not white space. */
  function SkipSpaces(s: string, p: nat): (q: nat)
    requires p <= |s|
    ensures p <= q <= |s|
    decreases |s| - p
  {
    if p < |s| && IsSpace(s[p]) then SkipSpaces(s, p + 1) else p
  }

  lemma {:induction false} SkipSpacesSpec(s: string, p: nat)
    requires p <= |s|
    ensures forall i :: p <= i < SkipSpaces(s, p) ==> IsSpace(s[i])
    ensures SkipSpaces(s, p) < |s| ==> !IsSpace(s[SkipSpaces(s, p)])
    decreases |s| - p
  {
    if p < |s| && IsSpace(s[p]) {
      SkipSpacesSpec(s, p + 1);
    }
  }

  /** First position at or after `p` that is not a digit. */
  function SkipDigits(s: string, p: nat): (q: nat)
    requires p <= |s|
    ensures p <= q <= |s|
    decreases |s| - p
  {
    if p < |s| && IsDigit(s[p]) then SkipDigits(s, p + 1) else p
  }

  lemma {:induction false} SkipDigitsSpec(s: string, p: nat)
    requires p <= |s|
    ensures forall i :: p <= i < SkipDigits(s, p) ==> IsDigit(s[i])
    ensures SkipDigits(s, p) < |s| ==> !IsDigit(s[SkipDigits(s, p)])
    decreases |s| - p
  {
    if p < |s| && IsDigit(s[p]) {
      SkipDigitsSpec(s, p + 1);
    }
  }

  /** Position after an optional '+' or '-'. */
  function SkipSign(s: string, p: nat): (q: nat)
    requires p <= |s|
    ensures p <= q <= |s|
  {
    if p < |s| && (s[p] == '+' || s[p] == '-') then p + 1 else p
  }

  function Saturate64(v: int): int {
    if v > MaxInt64 then MaxInt64 else if v < MinInt64 then MinInt64 else v
  }

  /** A conversion to a 32-bit `int` that keeps the low 32 bits (two's complement). */
  function WrapInt32(v: int): (r: int)
    ensures MinInt32 <= r <= MaxInt32
    ensures MinInt32 <= v <= MaxInt32 ==> r == v
    ensures (v - r) % 0x1_0000_0000 == 0
  {
    (v - MinInt32) % 0x1_0000_0000 + MinInt32
  }

  /**
   * `atoi(s)`, which the C libraries define as `(int)strtol(s, NULL, 10)`:
   * leading white space, an optional sign, then the longest run of digits;
   * no digits gives 0; `strtol` saturates to the range of a 64-bit `long`
   * and the cast keeps the low 32 bits.
   */
  function Atoi(s: string): (r: int)
    ensures MinInt32 <= r <= MaxInt32
  {
    var b := SkipSpaces(s, 0);
    var q := SkipSign(s, b);
    var e := SkipDigits(s, q);
    var magnitude: int := DigitsValue(s[q..e]);
    WrapInt32(Saturate64(if q > b && s[b] == '-' then -magnitude else magnitude))
  }

  /** An all-digit token whose value fits in an `int` reads as that value; the empty token reads as 0. */
  lemma AtoiOfDigits(s: string)
    requires AllDigits(s) && DigitsValue(s) <= MaxInt32
    ensures Atoi(s) == DigitsValue(s)
  {
    assert SkipSpaces(s, 0) == 0 by {
      if 0 < |s| { assert IsDigit(s[0]); }
    }
    assert SkipSign(s, 0) == 0 by {
      if 0 < |s| { assert IsDigit(s[0]); }
    }
    SkipDigitsStopsAt(s, 0, |s|);
    assert s[0..|s|] == s;
    DigitsValueNatural(s);
  }

  /** Round trip: `atoi` reads back the decimal text of any value that fits in an `int`. */
  lemma AtoiNatText(n: nat)
    requires n <= MaxInt32
    ensures Atoi(NatText(n)) == n
  {
    NatTextValue(n);
    NatTextDigits(n);
    AtoiOfDigits(NatText(n));
  }

  /** `atoi` reads a '-' before the decimal text of `n` as `-n`, down to `INT_MIN`. */
  lemma AtoiNegatedNatText(n: nat)
    requires n <= MaxInt32 + 1
    ensures Atoi("-" + NatText(n)) == -(n as int)
  {
    var t := "-" + NatText(n);
    assert t[1..1 + |NatText(n)|] == NatText(n);
    ScanNatText(t, 1, n);
    SkipSpacesStopsAt(t, 0, 0);
    assert SkipSign(t, 0) == 1;
  }

  /** The value of the fraction `0.d` written with the digits `d`. */
  function FractionValue(d: string): real {
    if |d| == 0 then 0.0 else (DigitValue(d[0]) as real + FractionValue(d[1..])) / 10.0
  }

  /** Ten to the power `n`. */
  function Pow10(n: nat): (r: nat)
    ensures 0 < r
  {
    if n == 0 then 1 else 10 * Pow10(n - 1)
  }

  /** `x` multiplied by ten, `k` times over. */
  function Scaled(x: real, k: nat): real {
    if k == 0 then x else 10.0 * Scaled(x, k - 1)
  }

  /** Scaling `k` times is multiplying by `10^k`. */
  lemma {:induction false} ScaledIsProduct(x: real, k: nat)
    ensures Scaled(x, k) == x * Pow10(k) as real
  {
    if k > 0 {
      ScaledIsProduct(x, k - 1);
      assert Pow10(k) as real == 10.0 * Pow10(k - 1) as real;
    }
  }

  /** Scaling distributes over a sum. */
  lemma {:induction false} ScaledAdd(a: real, b: real, k: nat)
    ensures Scaled(a + b, k) == Scaled(a, k) + Scaled(b, k)
  {
    if k > 0 {
      ScaledAdd(a, b, k - 1);
    }
  }

  /** A tenth scaled `k` times is the whole scaled `k - 1` times. */
  lemma {:induction false} ScaledTenth(x: real, k: nat)
    requires 0 < k
    ensures Scaled(x / 10.0, k) == Scaled(x, k - 1)
  {
    if k > 1 {
      ScaledTenth(x, k - 1);
    }
  }

  /** Reading a digit string from its first digit: the leading digit is worth `10^(n-1)`. */
  lemma {:induction false} DigitsValueFront(d: string)
    requires 0 < |d|
    ensures DigitsValue(d) as real == Scaled(DigitValue(d[0]) as real, |d| - 1) + DigitsValue(d[1..]) as real
  {
    var n := |d|;
    if n > 1 {
      var front := d[..n - 1];
      DigitsValueFront(front);
      assert front[0] == d[0];
      assert front[1..] == d[1..][..n - 2];
      assert d[1..][n - 2] == d[n - 1];
    } else {
      assert d[1..] == [];
      assert d[..0] == [];
    }
  }

  /** Scaled by `10^|d|`, the fraction `0.d` is the integer `d`. */
  lemma {:induction false} FractionScaled(d: string)
    ensures Scaled(FractionValue(d), |d|) == DigitsValue(d) as real
  {
    if |d| > 0 {
      var n := |d|;
      var rest := d[1..];
      var lead := DigitValue(d[0]) as real;
      assert |rest| == n - 1;
      FractionScaled(rest);
      DigitsValueFront(d);
      ScaledTenth(lead + FractionValue(rest), n);
      ScaledAdd(lead, FractionValue(rest), n - 1);
    }
  }

  /** The fraction `0.d` is the integer `d` over `10^|d|`. */
  lemma FractionOfDigits(d: string)
    ensures FractionValue(d) == DigitsValue(d) as real / Pow10(|d|) as real
  {
    FractionScaled(d);
    ScaledQuotient(FractionValue(d), DigitsValue(d) as real, |d|);
  }

  /** Undoing `k` scalings is dividing by `10^k`. */
  lemma ScaledQuotient(x: real, y: real, k: nat)
    requires Scaled(x, k) == y
    ensures x == y / Pow10(k) as real
  {
    ScaledIsProduct(x, k);
    DivideBack(x, Pow10(k) as real, y);
  }

  /** Division by a positive `q` undoes multiplication by it. */
  lemma DivideBack(x: real, q: real, y: real)
    requires 0.0 < q && x * q == y
    ensures x == y / q
  {
  }

  /**
   * Where the parts of a decimal number start and end when it is read from
   * `start`: an optional sign up to `digits`, integer digits up to
   * `intEnd`, an optional '.', fraction digits from `fracStart` up to `end`.
   */
  datatype Lexeme = Lexeme(start: nat, digits: nat, intEnd: nat, fracStart: nat, end: nat)

  function Lex(s: string, b: nat): (l: Lexeme)
    requires b <= |s|
    ensures b == l.start <= l.digits <= l.intEnd <= l.fracStart <= l.end <= |s|
    ensures l.fracStart == l.intEnd || (l.fracStart == l.intEnd + 1 && s[l.intEnd] == '.')
  {
    var q := SkipSign(s, b);
    var i := SkipDigits(s, q);
    var fracStart := if i < |s| && s[i] == '.' then i + 1 else i;
    Lexeme(b, q, i, fracStart, SkipDigits(s, fracStart))
  }

  /** At least one digit was seen, so something is consumed. */
  predicate HasDigits(l: Lexeme) {
    l.digits < l.intEnd || l.fracStart < l.end
  }

  /** A number read by `strtod`, and the position just after its text. */
  datatype Number = Number(value: real, end: nat)

  /** The number whose text starts at `b`, white space already skipped. */
  function ReadNumber(s: string, b: nat): (r: Option<Number>)
    requires b <= |s|
    ensures r.Some? ==> b < r.value.end <= |s|
  {
    var l := Lex(s, b);
    if !HasDigits(l) then None
    else
      var magnitude := DigitsValue(s[l.digits..l.intEnd]) as real + FractionValue(s[l.fracStart..l.end]);
      Some(Number(if l.digits > b && s[b] == '-' then -magnitude else magnitude, l.end))
  }

  /**
   * `strtod(s + p, &end)` for plain decimal text: leading white space, an
   * optional sign, digits with an optional fraction after '.', at least one
   * digit in all. `None` is the case `end == s + p`, where nothing is consumed.
   */
  function Strtod(s: string, p: nat): (r: Option<Number>)
    requires p <= |s|
    ensures r.Some? ==> p < r.value.end <= |s|
    decreases |s| - p
  {
    if p < |s| && IsSpace(s[p]) then Strtod(s, p + 1) else ReadNumber(s, p)
  }

  /** `strtod` starts reading at the first character that is not white space. */
  lemma {:induction false} StrtodAfterSpaces(s: string, p: nat)
    requires p <= |s|
    ensures Strtod(s, p) == ReadNumber(s, SkipSpaces(s, p))
    decreases |s| - p
  {
    if p < |s| && IsSpace(s[p]) {
      StrtodAfterSpaces(s, p + 1);
    }
  }

  lemma {:induction false} SkipSpacesFrom(s: string, p: nat, b: nat)
    requires p <= b <= |s|
    requires forall i :: p <= i < b ==> IsSpace(s[i])
    ensures SkipSpaces(s, p) == SkipSpaces(s, b)
    decreases b - p
  {
    if p < b {
      SkipSpacesFrom(s, p + 1, b);
    }
  }

  /** Leading white space is skipped: reading from `p` is reading from any later point up to which there is only white space. */
  lemma StrtodSkipsSpaces(s: string, p: nat, b: nat)
    requires p <= b <= |s|
    requires forall i :: p <= i < b ==> IsSpace(s[i])
    ensures Strtod(s, p) == Strtod(s, b)
  {
    StrtodAfterSpaces(s, p);
    StrtodAfterSpaces(s, b);
    SkipSpacesFrom(s, p, b);
  }

  lemma {:induction false} SkipSpacesStopsAt(s: string, p: nat, q: nat)
    requires p <= q <= |s|
    requires forall i :: p <= i < q ==> IsSpace(s[i])
    requires q == |s| || !IsSpace(s[q])
    ensures SkipSpaces(s, p) == q
    decreases q - p
  {
    if p < q {
      SkipSpacesStopsAt(s, p + 1, q);
    }
  }

  lemma {:induction false} SkipDigitsStopsAt(s: string, p: nat, q: nat)
    requires p <= q <= |s|
    requires forall i :: p <= i < q ==> IsDigit(s[i])
    requires q == |s| || !IsDigit(s[q])
    ensures SkipDigits(s, p) == q
    decreases q - p
  {
    if p < q {
      SkipDigitsStopsAt(s, p + 1, q);
    }
  }

  /** The digits of `NatText(m)` placed at `q` are scanned up to their end and read as `m`. */
  lemma ScanNatText(s: string, q: nat, m: nat)
    requires q + |NatText(m)| <= |s|
    requires s[q..q + |NatText(m)|] == NatText(m)
    requires q + |NatText(m)| == |s| || !IsDigit(s[q + |NatText(m)|])
    ensures SkipDigits(s, q) == q + |NatText(m)|
    ensures DigitsValue(s[q..SkipDigits(s, q)]) == m
  {
    var d := NatText(m);
    NatTextDigits(m);
    assert forall j :: q <= j < q + |d| ==> s[j] == d[j - q];
    SkipDigitsStopsAt(s, q, q + |d|);
    NatTextValue(m);
  }

  /** `NatText(m)` placed at `b`, after an optional '-', is read as `m` or `-m`. */
  lemma ReadNumberNatText(s: string, b: nat, negative: bool, m: nat)
    requires b < |s|
    requires negative ==> s[b] == '-'
    requires (if negative then b + 1 else b) + |NatText(m)| <= |s|
    requires s[(if negative then b + 1 else b)..(if negative then b + 1 else b) + |NatText(m)|] == NatText(m)
    requires var e := (if negative then b + 1 else b) + |NatText(m)|;
      e == |s| || !ContinuesNumber(s[e])
    ensures ReadNumber(s, b) == Some(Number(if negative then -(m as real) else m as real,
      (if negative then b + 1 else b) + |NatText(m)|))
  {
    var q := if negative then b + 1 else b;
    var e := q + |NatText(m)|;
    NatTextDigits(m);
    assert s[q] == NatText(m)[0];
    assert SkipSign(s, b) == q;
    ScanNatText(s, q, m);
    SkipDigitsStopsAt(s, e, e);
    var l := Lex(s, b);
    assert l == Lexeme(b, q, e, e, e);
    assert FractionValue(s[e..e]) == 0.0;
  }

  /** Where the text `NatText(m) + "." + f` placed at `q` ends. */
  function DecimalEnd(q: nat, m: nat, f: string): nat {
    q + |NatText(m)| + 1 + |f|
  }

  /**
   * `s` holds, from `q`, the decimal digits of `m`, a '.' and the digits
   * `f`, and nothing after them that `strtod` could take for more of the number.
   */
  predicate DecimalAt(s: string, q: nat, m: nat, f: string) {
    var i := q + |NatText(m)|;
    && AllDigits(f) && DecimalEnd(q, m, f) <= |s|
    && s[q..i] == NatText(m) && s[i] == '.' && s[i + 1..DecimalEnd(q, m, f)] == f
    && (DecimalEnd(q, m, f) == |s| || !ContinuesNumber(s[DecimalEnd(q, m, f)]))
  }

  lemma DecimalStartsWithDigit(s: string, q: nat, m: nat, f: string)
    requires DecimalAt(s, q, m, f)
    ensures q < |s| && IsDigit(s[q])
  {
    NatTextDigits(m);
    assert s[q] == s[q..q + |NatText(m)|][0];
  }

  /** How `Lex` splits a decimal number with a fraction part. */
  lemma LexDecimal(s: string, b: nat, negative: bool, m: nat, f: string)
    requires b < |s| && (negative ==> s[b] == '-')
    requires DecimalAt(s, if negative then b + 1 else b, m, f)
    ensures var q := if negative then b + 1 else b;
      var i := q + |NatText(m)|;
      && Lex(s, b) == Lexeme(b, q, i, i + 1, DecimalEnd(q, m, f))
      && DigitsValue(s[q..i]) == m
  {
    var q := if negative then b + 1 else b;
    var i := q + |NatText(m)|;
    var e := DecimalEnd(q, m, f);
    DecimalStartsWithDigit(s, q, m, f);
    assert SkipSign(s, b) == q;
    ScanNatText(s, q, m);
    forall j | i + 1 <= j < e
      ensures IsDigit(s[j])
    {
      assert s[j] == s[i + 1..e][j - (i + 1)];
    }
    SkipDigitsStopsAt(s, i + 1, e);
  }

  /** `NatText(m)`, a '.' and the digits `f`, after an optional '-', are read as `m + 0.f` or its negation. */
  lemma ReadNumberDecimal(s: string, b: nat, negative: bool, m: nat, f: string)
    requires b < |s| && (negative ==> s[b] == '-')
    requires DecimalAt(s, if negative then b + 1 else b, m, f)
    ensures var v := m as real + FractionValue(f);
      ReadNumber(s, b) == Some(Number(if negative then -v else v,
        DecimalEnd(if negative then b + 1 else b, m, f)))
  {
    var q := if negative then b + 1 else b;
    var l := Lex(s, b);
    LexDecimal(s, b, negative, m, f);
    DecimalStartsWithDigit(s, q, m, f);
    assert HasDigits(l);
    assert s[l.fracStart..l.end] == f;
    assert (l.digits > b && s[b] == '-') == negative;
  }

  /** `strtod` over `k` white-space characters and then a decimal number with a fraction part. */
  lemma StrtodReadsDecimal(s: string, p: nat, k: nat, negative: bool, m: nat, f: string)
    requires p + k < |s| && forall i :: p <= i < p + k ==> IsSpace(s[i])
    requires negative ==> s[p + k] == '-'
    requires DecimalAt(s, if negative then p + k + 1 else p + k, m, f)
    ensures var v := m as real + FractionValue(f);
      Strtod(s, p) == Some(Number(if negative then -v else v,
        DecimalEnd(if negative then p + k + 1 else p + k, m, f)))
  {
    var b := p + k;
    ReadNumberDecimal(s, b, negative, m, f);
    DecimalStartsWithDigit(s, if negative then b + 1 else b, m, f);
    SkipSpacesStopsAt(s, p, b);
    StrtodAfterSpaces(s, p);
  }

  /** A run of digits `d` at `p` that no further digit follows is scanned to its end. */
  lemma ScanDigitsAt(s: string, p: nat, d: string)
    requires AllDigits(d) && p + |d| <= |s| && s[p..p + |d|] == d
    requires p + |d| == |s| || !IsDigit(s[p + |d|])
    ensures SkipDigits(s, p) == p + |d|
  {
    forall j | p <= j < p + |d|
      ensures IsDigit(s[j])
    {
      assert s[j] == s[p..p + |d|][j - p];
    }
    SkipDigitsStopsAt(s, p, p + |d|);
  }

  /** Where a number written as a sign, integer digits, an optional '.' and fraction digits ends when it starts at `b`. */
  function NumberTextEnd(b: nat, sign: string, i: string, point: bool, f: string): nat {
    b + |sign| + |i| + (if point then 1 else 0) + |f|
  }

  /**
   * `s` holds, from `b`, any text of the grammar `[sign] digits [. digits]`
   * with at least one digit: the sign `sign` ("", "+" or "-"), the integer
   * digits `i`, a '.' when `point`, and the fraction digits `f`, with
   * nothing after it that `strtod` could take for more of the number.
   * Leading zeros, "+1", ".5" and "5." are all of this form.
   */
  predicate NumberTextAt(s: string, b: nat, sign: string, i: string, point: bool, f: string) {
    var q := b + |sign|;
    var ie := q + |i|;
    var fs := if point then ie + 1 else ie;
    var e := NumberTextEnd(b, sign, i, point, f);
    && (sign == "" || sign == "+" || sign == "-")
    && AllDigits(i) && AllDigits(f) && (point || f == "") && 0 < |i| + |f|
    && e <= |s|
    && s[b..q] == sign && s[q..ie] == i && (point ==> s[ie] == '.') && s[fs..e] == f
    && (e == |s| || !ContinuesNumber(s[e]))
  }

  /** The first character of such a text is a sign, a digit or the point. */
  lemma NumberTextStart(s: string, b: nat, sign: string, i: string, point: bool, f: string)
    requires NumberTextAt(s, b, sign, i, point, f)
    ensures b < |s|
    ensures sign != "" ==> s[b] == sign[0]
    ensures sign == "" && i != "" ==> s[b] == i[0]
    ensures sign == "" && i == "" ==> s[b] == '.'
  {
    var q := b + |sign|;
    if sign != "" {
      assert s[b] == s[b..q][0];
    } else if i != "" {
      assert s[b] == s[q..q + |i|][0];
    }
  }

  /** How `Lex` splits such a text. */
  lemma LexNumberText(s: string, b: nat, sign: string, i: string, point: bool, f: string)
    requires NumberTextAt(s, b, sign, i, point, f)
    ensures var q := b + |sign|;
      var ie := q + |i|;
      Lex(s, b) == Lexeme(b, q, ie, if point then ie + 1 else ie, NumberTextEnd(b, sign, i, point, f))
  {
    var q := b + |sign|;
    var ie := q + |i|;
    var fs := if point then ie + 1 else ie;
    var e := NumberTextEnd(b, sign, i, point, f);
    NumberTextStart(s, b, sign, i, point, f);
    assert SkipSign(s, b) == q;
    ScanDigitsAt(s, q, i);
    assert fs == (if ie < |s| && s[ie] == '.' then ie + 1 else ie);
    ScanDigitsAt(s, fs, f);
  }

  /** `strtod`'s value for any text of the grammar: the integer digits plus the fraction, negated after '-'. */
  lemma ReadNumberText(s: string, b: nat, sign: string, i: string, point: bool, f: string)
    requires NumberTextAt(s, b, sign, i, point, f)
    ensures var v := DigitsValue(i) as real + FractionValue(f);
      ReadNumber(s, b) == Some(Number(if sign == "-" then -v else v, NumberTextEnd(b, sign, i, point, f)))
  {
    var l := Lex(s, b);
    LexNumberText(s, b, sign, i, point, f);
    NumberTextStart(s, b, sign, i, point, f);
    assert HasDigits(l);
    assert s[l.digits..l.intEnd] == i;
    assert s[l.fracStart..l.end] == f;
    assert (l.digits > b && s[b] == '-') == (sign == "-");
  }

  /** The same after `k` white-space characters. */
  lemma StrtodReadsText(s: string, p: nat, k: nat, sign: string, i: string, point: bool, f: string)
    requires p + k <= |s| && forall j :: p <= j < p + k ==> IsSpace(s[j])
    requires NumberTextAt(s, p + k, sign, i, point, f)
    ensures var v := DigitsValue(i) as real + FractionValue(f);
      Strtod(s, p) == Some(Number(if sign == "-" then -v else v, NumberTextEnd(p + k, sign, i, point, f)))
  {
    var b := p + k;
    ReadNumberText(s, b, sign, i, point, f);
    NumberTextStart(s, b, sign, i, point, f);
    SkipSpacesStopsAt(s, p, b);
    StrtodAfterSpaces(s, p);
  }

  /** A '+' and leading zeros: "+007" reads as 7 and is consumed whole. */
  lemma StrtodPlusLeadingZeros()
    ensures Strtod("+007", 0) == Some(Number(7.0, 4))
  {
    assert "+007"[0..1] == "+" && "+007"[1..4] == "007";
    assert "007"[..2] == "00" && "00"[..1] == "0" && "0"[..0] == "";
    assert DigitsValue("007") == 7;
    StrtodReadsText("+007", 0, 0, "+", "007", false, "");
  }

  /** No integer digits: ".5" reads as 0.5. */
  lemma StrtodNoIntegerPart()
    ensures Strtod(".5", 0) == Some(Number(0.5, 2))
  {
    assert ".5"[1..2] == "5" && FractionValue("5") == 0.5;
    StrtodReadsText(".5", 0, 0, "", "", true, "5");
  }

  /** No fraction digits: "5." reads as 5 and the point is consumed. */
  lemma StrtodNoFractionDigits()
    ensures Strtod("5.", 0) == Some(Number(5.0, 2))
  {
    assert "5."[0..1] == "5" && DigitsValue("5") == 5;
    StrtodReadsText("5.", 0, 0, "", "5", true, "");
  }

  /**
   * `strtod` reads back the decimal text of an integer placed at `p + k`
   * after `k` white-space characters, provided the text is not followed by
   * anything that could continue a number (`ContinuesNumber`).
   */
  lemma StrtodReadsIntText(s: string, p: nat, k: nat, n: int)
    requires p + k + |IntText(n)| <= |s|
    requires forall i :: p <= i < p + k ==> IsSpace(s[i])
    requires s[p + k..p + k + |IntText(n)|] == IntText(n)
    requires p + k + |IntText(n)| == |s| || !ContinuesNumber(s[p + k + |IntText(n)|])
    ensures Strtod(s, p) == Some(Number(n as real, p + k + |IntText(n)|))
  {
    var b := p + k;
    ReadNumberIntText(s, b, n);
    SpacesBeforeIntText(s, p, b, n);
    StrtodAfterSpaces(s, p);
  }

  /** `strtod` at a single space followed by the text of `n`. */
  lemma StrtodReadsSpacedIntText(s: string, p: nat, n: int)
    requires p + 1 + |IntText(n)| <= |s|
    requires s[p] == ' ' && s[p + 1..p + 1 + |IntText(n)|] == IntText(n)
    requires p + 1 + |IntText(n)| == |s| || !ContinuesNumber(s[p + 1 + |IntText(n)|])
    ensures Strtod(s, p) == Some(Number(n as real, p + 1 + |IntText(n)|))
  {
    StrtodReadsIntText(s, p, 1, n);
  }

  lemma SpacesBeforeIntText(s: string, p: nat, b: nat, n: int)
    requires p <= b && b + |IntText(n)| <= |s|
    requires forall i :: p <= i < b ==> IsSpace(s[i])
    requires s[b..b + |IntText(n)|] == IntText(n)
    ensures SkipSpaces(s, p) == b
  {
    IntTextShape(n);
    assert s[b] == IntText(n)[0];
    SkipSpacesStopsAt(s, p, b);
  }

  /** The sign and digits found in `IntText(n)` placed at `b`. */
  lemma IntTextAt(s: string, b: nat, n: int)
    requires b + |IntText(n)| <= |s|
    requires s[b..b + |IntText(n)|] == IntText(n)
    ensures var q := if n < 0 then b + 1 else b;
      && (n < 0 ==> s[b] == '-')
      && q + |NatText(if n < 0 then -n else n)| == b + |IntText(n)|
      && s[q..b + |IntText(n)|] == NatText(if n < 0 then -n else n)
  {
    var e := b + |IntText(n)|;
    if n < 0 {
      assert IntText(n) == "-" + NatText(-n);
      assert s[b] == IntText(n)[0];
      assert s[b + 1..e] == s[b..e][1..];
    }
  }

  lemma ReadNumberIntText(s: string, b: nat, n: int)
    requires b + |IntText(n)| <= |s|
    requires s[b..b + |IntText(n)|] == IntText(n)
    requires b + |IntText(n)| == |s| || !ContinuesNumber(s[b + |IntText(n)|])
    ensures ReadNumber(s, b) == Some(Number(n as real, b + |IntText(n)|))
  {
    IntTextAt(s, b, n);
    if n < 0 {
      assert |IntText(n)| == 1 + |NatText(-n)|;
      ReadNumberNatText(s, b, true, -n);
      assert -((-n) as real) == n as real;
    } else {
      assert IntText(n) == NatText(n);
      ReadNumberNatText(s, b, false, n);
    }
  }

  // ---------------------------------------------------------------------------
  // strtod reads forward only
  // ---------------------------------------------------------------------------

  /**
   * The condition under which a text `t` holds the number that `s` holds from
   * `b` up to `e`: the same characters from `b` to `e`, and at `e` the end of
   * `t`, the character `s` has at `e`, or a character that cannot continue a
   * number.
   */
  predicate HoldsAt(s: string, b: nat, e: nat, t: string)
    requires b <= e <= |s|
  {
    && e <= |t|
    && t[b..e] == s[b..e]
    && (e == |t| || (e < |s| && t[e] == s[e]) || !ContinuesNumber(t[e]))
  }

  /** Two texts that agree on a stretch agree on every character of it ... */
  lemma SameChar(s: string, b: nat, e: nat, t: string, j: nat)
    requires b <= j < e <= |s| && e <= |t|
    requires t[b..e] == s[b..e]
    ensures t[j] == s[j]
  {
    assert t[j] == t[b..e][j - b];
  }

  /** ... and on every part of it. */
  lemma SameStretch(s: string, b: nat, e: nat, t: string, b': nat, e': nat)
    requires b <= b' <= e' <= e <= |s| && e <= |t|
    requires t[b..e] == s[b..e]
    ensures t[b'..e'] == s[b'..e']
  {
    forall i | 0 <= i < e' - b'
      ensures t[b'..e'][i] == s[b'..e'][i]
    {
      SameChar(s, b, e, t, b' + i);
    }
  }

  /** A text that holds a stretch holds every part of it. */
  lemma HoldsWithin(s: string, b: nat, e: nat, t: string, b': nat, e': nat)
    requires b <= b' <= e' <= e <= |s|
    requires HoldsAt(s, b, e, t)
    ensures HoldsAt(s, b', e', t)
  {
    SameStretch(s, b, e, t, b', e');
    if e' < e {
      SameChar(s, b, e, t, e');
    }
  }

  lemma SkipDigitsAgrees(s: string, p: nat, q: nat, e: nat, t: string)
    requires p <= q <= e <= |s| && q == SkipDigits(s, p)
    requires e <= |t| && t[p..e] == s[p..e]
    requires q == e ==> (e == |t| || (e < |s| && t[e] == s[e]) || !ContinuesNumber(t[e]))
    ensures SkipDigits(t, p) == q
  {
    SkipDigitsSpec(s, p);
    forall j | p <= j < q
      ensures IsDigit(t[j])
    {
      SameChar(s, p, e, t, j);
    }
    if q < e {
      SameChar(s, p, e, t, q);
    }
    SkipDigitsStopsAt(t, p, q);
  }

  lemma SpacesAgree(s: string, p: nat, q: nat, e: nat, t: string)
    requires p <= q < e <= |s| && q == SkipSpaces(s, p)
    requires e <= |t| && t[p..e] == s[p..e]
    ensures SkipSpaces(t, p) == q
  {
    SkipSpacesSpec(s, p);
    forall j | p <= j < q
      ensures IsSpace(t[j])
    {
      SameChar(s, p, e, t, j);
    }
    SameChar(s, p, e, t, q);
    SkipSpacesStopsAt(t, p, q);
  }

  /** The '.' test after the integer digits gives the same answer in both texts. */
  lemma PointAgrees(s: string, b: nat, i: nat, e: nat, t: string)
    requires b <= i <= e <= |s| && e <= |t| && t[b..e] == s[b..e]
    requires i == e ==> (e == |t| || (e < |s| && t[e] == s[e]) || !ContinuesNumber(t[e]))
    requires i == e ==> !(i < |s| && s[i] == '.')
    ensures (i < |t| && t[i] == '.') == (i < |s| && s[i] == '.')
  {
    if i < e {
      SameChar(s, b, e, t, i);
    }
  }

  lemma LexAgrees(s: string, b: nat, t: string)
    requires b <= |s| && HasDigits(Lex(s, b))
    requires HoldsAt(s, b, Lex(s, b).end, t)
    ensures b <= |t| && Lex(t, b) == Lex(s, b)
  {
    var l := Lex(s, b);
    var e := l.end;
    SameChar(s, b, e, t, b);
    SameStretch(s, b, e, t, l.digits, e);
    SkipDigitsAgrees(s, l.digits, l.intEnd, e, t);
    SkipDigitsSpec(s, l.fracStart);
    PointAgrees(s, b, l.intEnd, e, t);
    SameStretch(s, b, e, t, l.fracStart, e);
    SkipDigitsAgrees(s, l.fracStart, e, e, t);
  }

  /** `ReadNumber` depends only on the characters of the number and the one after it. */
  lemma ReadNumberAgrees(s: string, b: nat, t: string)
    requires b <= |s| && ReadNumber(s, b).Some?
    requires HoldsAt(s, b, ReadNumber(s, b).value.end, t)
    ensures b <= |t| && ReadNumber(t, b) == ReadNumber(s, b)
  {
    var l := Lex(s, b);
    LexAgrees(s, b, t);
    SameChar(s, b, l.end, t, b);
    SameStretch(s, b, l.end, t, l.digits, l.intEnd);
    SameStretch(s, b, l.end, t, l.fracStart, l.end);
  }

  /**
   * `strtod` at `p` looks only at the text from `p` to the end of the number
   * and the character after it: any text holding the same characters there
   * reads the same number.
   */
  lemma StrtodAgrees(s: string, p: nat, t: string)
    requires p <= |s| && Strtod(s, p).Some?
    requires HoldsAt(s, p, Strtod(s, p).value.end, t)
    ensures p <= |t| && Strtod(t, p) == Strtod(s, p)
  {
    var q := SkipSpaces(s, p);
    var e := Strtod(s, p).value.end;
    StrtodAfterSpaces(s, p);
    SpacesAgree(s, p, q, e, t);
    SameStretch(s, p, e, t, q, e);
    ReadNumberAgrees(s, q, t);
    StrtodAfterSpaces(t, p);
  }

  /** `strtod` reads the whole text of an integer back as that integer. */
  lemma StrtodOfIntText(n: int)
    ensures Strtod(IntText(n), 0) == Some(Number(n as real, |IntText(n)|))
  {
    var t := IntText(n);
    assert t[0..|t|] == t;
    StrtodReadsIntText(t, 0, 0, n);
  }
}

=== FILE: flags.dfy ===
/**
 * `getFlagValue`: the value of a command-line flag given either as
 * `key=value` in one argument or as `key` followed by a separate argument.
 * `argv` holds every argument, the program name at index 0 included.
 */
module Flags {
  import opened Options
  import opened CString

  /** What argument `i` says about `key`: the `=` form is tried first, then the two-argument form. */
  function MatchAt(argv: seq<string>, key: string, i: nat): Option<string>
    requires i < |argv|
  {
    if IsAssignmentOf(argv[i], key) then Some(argv[i][|key| + 1..])
    else if argv[i] == key && i + 1 < |argv| then Some(argv[i + 1])
    else None
  }

  /** The scan of `getFlagValue` from index `i` on: the first index that matches decides. */
  function FlagValueFrom(argv: seq<string>, key: string, i: nat): (r: Option<string>)
    ensures r.None? <==> forall j :: i <= j < |argv| ==> MatchAt(argv, key, j).None?
    ensures r.Some? ==> exists j :: i <= j < |argv| && MatchAt(argv, key, j) == r
                                  && forall k :: i <= k < j ==> MatchAt(argv, key, k).None?
    decreases |argv| - i
  {
    if i >= |argv| then None
    else if MatchAt(argv, key, i).Some? then MatchAt(argv, key, i)
    else FlagValueFrom(argv, key, i + 1)
  }

  /** `getFlagValue(argc, argv, key)`; `None` is the null pointer. */
  function GetFlagValue(argv: seq<string>, key: string): (r: Option<string>)
    ensures r.None? <==> forall j :: 1 <= j < |argv| ==> MatchAt(argv, key, j).None?
    ensures r.Some? ==> exists j :: 1 <= j < |argv| && MatchAt(argv, key, j) == r
                                  && forall k :: 1 <= k < j ==> MatchAt(argv, key, k).None?
  {
    FlagValueFrom(argv, key, 1)
  }

  /** The value found is that of the first matching index: a match at `j` with none before it is the answer. */
  lemma FirstMatchWins(argv: seq<string>, key: string, j: nat)
    requires 1 <= j < |argv| && MatchAt(argv, key, j).Some?
    requires forall k :: 1 <= k < j ==> MatchAt(argv, key, k).None?
    ensures GetFlagValue(argv, key) == MatchAt(argv, key, j)
  {
    var r := GetFlagValue(argv, key);
    var j' :| 1 <= j' < |argv| && MatchAt(argv, key, j') == r
      && forall k :: 1 <= k < j' ==> MatchAt(argv, key, k).None?;
    if j' != j {
      assert false;
    }
  }

  /** The scan from `i` depends only on the arguments from index `i` on. */
  lemma {:induction false} FlagValueFromSuffix(argv: seq<string>, argv': seq<string>, key: string, i: nat)
    requires |argv| == |argv'| && i <= |argv|
    requires argv[i..] == argv'[i..]
    ensures FlagValueFrom(argv, key, i) == FlagValueFrom(argv', key, i)
    decreases |argv| - i
  {
    if i < |argv| {
      assert argv[i] == argv[i..][0] == argv'[i];
      if i + 1 < |argv| {
        assert argv[i + 1] == argv[i..][1] == argv'[i + 1];
      }
      assert argv[i + 1..] == argv[i..][1..];
      assert argv'[i + 1..] == argv'[i..][1..];
      FlagValueFromSuffix(argv, argv', key, i + 1);
    }
  }

  /** The program name `argv[0]` is never inspected, even when it looks like the flag. */
  lemma IgnoresProgramName(argv: seq<string>, name: string, key: string)
    requires 0 < |argv|
    ensures GetFlagValue(argv, key) == GetFlagValue([name] + argv[1..], key)
  {
    assert argv[1..] == ([name] + argv[1..])[1..];
    FlagValueFromSuffix(argv, [name] + argv[1..], key, 1);
  }

  /** A bare `key` as the last argument has no value to take: it is not a match, and alone it yields no value. */
  lemma TrailingBareKeyNotMatched(argv: seq<string>, key: string)
    requires 1 < |argv| && argv[|argv| - 1] == key
    ensures MatchAt(argv, key, |argv| - 1).None?
    ensures (forall j :: 1 <= j < |argv| - 1 ==> MatchAt(argv, key, j).None?) ==> GetFlagValue(argv, key).None?
  {
  }
}

=== FILE: image.dfy ===
/**
 * `Renderer::save_image` up to the PNG encoder: the first `width * height`
 * pixels of the buffer become an RGBA byte sequence, four bytes per pixel
 * in buffer order, each colour channel through `toInt` and alpha 255.
 */
module Image {
  import opened Vector
  import opened Tone
  import Render

  /** The four bytes pushed for one pixel. */
  function Channels(p: Vec): (b: seq<Byte>)
    ensures |b| == 4
  {
    [ToInt(p.x), ToInt(p.y), ToInt(p.z), 255]
  }

  /** The byte buffer for `pixels`, appended pixel by pixel. */
  function EncodeRGBA(pixels: seq<Vec>): (bytes: seq<Byte>)
    ensures |bytes| == 4 * |pixels|
  {
    if |pixels| == 0 then [] else EncodeRGBA(pixels[..|pixels| - 1]) + Channels(pixels[|pixels| - 1])
  }

  /** The four bytes of pixel `i` sit at offsets `4i .. 4i+3`: `toInt` of x, y and z, then 255. */
  lemma {:induction false} EncodedPixel(pixels: seq<Vec>, i: int)
    requires 0 <= i < |pixels|
    ensures 4 * i + 4 <= |EncodeRGBA(pixels)|
    ensures EncodeRGBA(pixels)[4 * i .. 4 * i + 4] == Channels(pixels[i])
    decreases |pixels|
  {
    var n := |pixels|;
    var front := pixels[..n - 1];
    var enc := EncodeRGBA(front);
    assert EncodeRGBA(pixels) == enc + Channels(pixels[n - 1]);
    if i < n - 1 {
      EncodedPixel(front, i);
      assert front[i] == pixels[i];
      assert (enc + Channels(pixels[n - 1]))[4 * i .. 4 * i + 4] == enc[4 * i .. 4 * i + 4];
    } else {
      assert |enc| == 4 * i;
    }
  }

  /** Encoding distributes over concatenation of pixel runs. */
  lemma {:induction false} EncodeAppend(a: seq<Vec>, b: seq<Vec>)
    ensures EncodeRGBA(a + b) == EncodeRGBA(a) + EncodeRGBA(b)
    decreases |b|
  {
    if |b| == 0 {
      assert a + b == a;
    } else {
      var b' := b[..|b| - 1];
      assert (a + b)[..|a + b| - 1] == a + b';
      assert (a + b)[|a + b| - 1] == b[|b| - 1];
      EncodeAppend(a, b');
    }
  }

  /**
   * `save_image`'s buffer: `pixel_count = width * height` pixels read from
   * the row-major pixel buffer, which holds at least that many.
   */
  function SaveImageBuffer(pixels: seq<Vec>, width: nat, height: nat): (bytes: seq<Byte>)
    requires width * height <= |pixels|
    ensures |bytes| == 4 * (width * height)
  {
    EncodeRGBA(pixels[..width * height])
  }

  /** The four bytes at slot `4 (y width + x)` of the saved buffer encode pixel `(x, y)`. */
  lemma SavedPixel(pixels: seq<Vec>, width: nat, height: nat, x: int, y: int)
    requires width * height <= |pixels| && 0 <= x < width && 0 <= y < height
    ensures var k := Render.PixelIndex(x, y, width);
      0 <= k < width * height &&
      SaveImageBuffer(pixels, width, height)[4 * k .. 4 * k + 4] == Channels(pixels[k])
  {
    var k := Render.PixelIndex(x, y, width);
    Render.PixelIndexInBuffer(x, y, width, height);
    EncodedPixel(pixels[..width * height], k);
  }

  // ---------------------------------------------------------------------------
  // Reading the bytes back
  // ---------------------------------------------------------------------------

  /** A channel value that is exactly one of the 256 byte levels. */
  predicate IsLevel(c: real)
  {
    exists b: Byte :: c == Level(b)
  }

  /** A pixel whose three channels are byte levels. */
  predicate Representable(p: Vec)
  {
    IsLevel(p.x) && IsLevel(p.y) && IsLevel(p.z)
  }

  /** An RGBA byte sequence read back as colours; alpha is dropped. */
  function DecodeRGBA(bytes: seq<Byte>): (pixels: seq<Vec>)
    requires |bytes| % 4 == 0
    ensures |pixels| == |bytes| / 4
  {
    seq(|bytes| / 4, i requires 0 <= i < |bytes| / 4 =>
      Vec(Level(bytes[4 * i]), Level(bytes[4 * i + 1]), Level(bytes[4 * i + 2])))
  }

  lemma LevelOfByte(c: real)
    requires IsLevel(c)
    ensures Level(ToInt(c)) == c
  {
    var b: Byte :| c == Level(b);
    ToIntOfLevel(b);
  }

  /** Pixels already on byte levels survive encoding and decoding unchanged. */
  lemma DecodeEncode(pixels: seq<Vec>)
    requires forall i :: 0 <= i < |pixels| ==> Representable(pixels[i])
    ensures |EncodeRGBA(pixels)| % 4 == 0
    ensures DecodeRGBA(EncodeRGBA(pixels)) == pixels
  {
    var enc := EncodeRGBA(pixels);
    Render.DivModUnique(|enc|, 4, |pixels|, 0);
    var back := DecodeRGBA(enc);
    forall i | 0 <= i < |pixels|
      ensures back[i] == pixels[i]
    {
      DecodePixel(pixels, enc, back, i);
    }
  }

  lemma DecodePixel(pixels: seq<Vec>, enc: seq<Byte>, back: seq<Vec>, i: int)
    requires enc == EncodeRGBA(pixels) && |enc| % 4 == 0 && back == DecodeRGBA(enc)
    requires 0 <= i < |pixels| && Representable(pixels[i])
    ensures i < |back| && back[i] == pixels[i]
  {
    var p := pixels[i];
    EncodedPixel(pixels, i);
    var quad := enc[4 * i .. 4 * i + 4];
    assert quad == Channels(p);
    assert enc[4 * i] == quad[0] == ToInt(p.x);
    assert enc[4 * i + 1] == quad[1] == ToInt(p.y);
    assert enc[4 * i + 2] == quad[2] == ToInt(p.z);
    assert back[i] == Vec(Level(enc[4 * i]), Level(enc[4 * i + 1]), Level(enc[4 * i + 2]));
    LevelOfByte(p.x);
    LevelOfByte(p.y);
    LevelOfByte(p.z);
  }

  /** Opaque RGBA bytes survive decoding and encoding unchanged. */
  lemma EncodeDecode(bytes: seq<Byte>)
    requires |bytes| % 4 == 0
    requires forall i :: 0 <= i < |bytes| / 4 ==> bytes[4 * i + 3] == 255
    ensures EncodeRGBA(DecodeRGBA(bytes)) == bytes
  {
    var again := EncodeRGBA(DecodeRGBA(bytes));
    assert |again| == |bytes|;
    forall k | 0 <= k < |bytes|
      ensures again[k] == bytes[k]
    {
      ReencodedByte(bytes, again, k / 4, k % 4);
    }
  }

  lemma ReencodedByte(bytes: seq<Byte>, again: seq<Byte>, i: int, r: int)
    requires |bytes| % 4 == 0 && 0 <= i < |bytes| / 4 && 0 <= r < 4
    requires forall j :: 0 <= j < |bytes| / 4 ==> bytes[4 * j + 3] == 255
    requires again == EncodeRGBA(DecodeRGBA(bytes))
    ensures 4 * i + r < |again| && again[4 * i + r] == bytes[4 * i + r]
  {
    var pixels := DecodeRGBA(bytes);
    EncodedPixel(pixels, i);
    var quad := again[4 * i .. 4 * i + 4];
    assert again[4 * i + r] == quad[r];
    ToIntOfLevel(bytes[4 * i]);
    ToIntOfLevel(bytes[4 * i + 1]);
    ToIntOfLevel(bytes[4 * i + 2]);
  }

  /** Every colour encodes to the bytes of a byte-level colour: quantisation is idempotent. */
  lemma QuantiseIdempotent(pixels: seq<Vec>)
    ensures |EncodeRGBA(pixels)| % 4 == 0
    ensures EncodeRGBA(DecodeRGBA(EncodeRGBA(pixels))) == EncodeRGBA(pixels)
  {
    var enc := EncodeRGBA(pixels);
    Render.DivModUnique(|enc|, 4, |pixels|, 0);
    forall i | 0 <= i < |enc| / 4
      ensures enc[4 * i + 3] == 255
    {
      EncodedPixel(pixels, i);
      assert enc[4 * i + 3] == enc[4 * i .. 4 * i + 4][3];
    }
    EncodeDecode(enc);
  }
}

=== FILE: launch.dfy ===
/**
 * What `main` derives from its arguments before rendering: the sample
 * count, the camera position and target (overridable when the build enables
 * the camera flags), the mesh path and the warnings printed on the way;
 * and the hours/minutes/seconds split of the elapsed time printed at the end.
 */
module Launch {
  import opened Options
  import opened CString
  import opened Vector
  import opened Flags
  import opened VecParse
  import opened Samples
  import opened Mesh

  const CamPosDefault: Vec := Vec(0.0, -4.0, 1.0)
  const CamTargetDefault: Vec := Vec(0.0, 0.0, 1.0)
  const CamPosFlag: string := "--cam-pos"
  const CamTargetFlag: string := "--cam-target"

  /** The non-fatal warnings `main` writes to the error stream. */
  datatype Diagnostic =
    | InvalidVector(flag: string, text: string)
    | UnknownMesh(key: string)

  /** The value a camera flag leaves in place, and its warning if the text was malformed. */
  datatype Override = Override(value: Vec, warning: Option<Diagnostic>)

  /** One `if (const char* v = getFlagValue(...))` camera block. */
  function CameraOverride(argv: seq<string>, flag: string, default: Vec): (r: Override)
    ensures r.warning.Some? <==> GetFlagValue(argv, flag).Some? && ParseVec3(GetFlagValue(argv, flag)).None?
    ensures r.warning.Some? ==> r.warning.value == InvalidVector(flag, GetFlagValue(argv, flag).value)
    ensures r.value == default || ParseVec3(GetFlagValue(argv, flag)) == Some(r.value)
    ensures ParseVec3(GetFlagValue(argv, flag)).Some? ==> Some(r.value) == ParseVec3(GetFlagValue(argv, flag))
  {
    match GetFlagValue(argv, flag)
    case None => Override(default, None)
    case Some(v) =>
      match ParseVec3(Some(v))
      case Some(p) => Override(p, None)
      case None => Override(default, Some(InvalidVector(flag, v)))
  }

  /** The flag is given but its value is not three numbers. */
  predicate Malformed(argv: seq<string>, flag: string) {
    GetFlagValue(argv, flag).Some? && ParseVec3(GetFlagValue(argv, flag)).None?
  }

  datatype Config = Config(
    samples: int,
    camPos: Vec,
    camTarget: Vec,
    meshPath: string,
    diagnostics: seq<Diagnostic>)

  function WarningList(w: Option<Diagnostic>): seq<Diagnostic> {
    if w.Some? then [w.value] else []
  }

  /**
   * The configuration `main` builds from `argv`. `cameraCli` stands for the
   * compile-time switch `EXPERIMENTAL_CAMERA_CLI`; `assetDir` for `ASSET_DIR`.
   */
  function Configure(argv: seq<string>, assetDir: string, cameraCli: bool): (c: Config)
    ensures c.samples == SampleCount(argv) && 1 <= c.samples
    ensures 0 < |c.meshPath|
    ensures !cameraCli ==> c.camPos == CamPosDefault && c.camTarget == CamTargetDefault
    ensures ParseVec3(GetFlagValue(argv, CamPosFlag)).None? ==> c.camPos == CamPosDefault
    ensures ParseVec3(GetFlagValue(argv, CamTargetFlag)).None? ==> c.camTarget == CamTargetDefault
    ensures cameraCli && ParseVec3(GetFlagValue(argv, CamPosFlag)).Some? ==>
      Some(c.camPos) == ParseVec3(GetFlagValue(argv, CamPosFlag))
    ensures cameraCli && ParseVec3(GetFlagValue(argv, CamTargetFlag)).Some? ==>
      Some(c.camTarget) == ParseVec3(GetFlagValue(argv, CamTargetFlag))
    ensures c.meshPath == ResolveMesh(argv, assetDir).path
    ensures c.diagnostics ==
      (if cameraCli && Malformed(argv, CamPosFlag) then [InvalidVector(CamPosFlag, GetFlagValue(argv, CamPosFlag).value)] else [])
      + (if cameraCli && Malformed(argv, CamTargetFlag) then [InvalidVector(CamTargetFlag, GetFlagValue(argv, CamTargetFlag).value)] else [])
      + (if ResolveMesh(argv, assetDir).unknownKey.Some? then [UnknownMesh(ResolveMesh(argv, assetDir).unknownKey.value)] else [])
    ensures |c.diagnostics| <= 3
    ensures !cameraCli ==> forall d :: d in c.diagnostics ==> d.UnknownMesh?
  {
    var pos := if cameraCli then CameraOverride(argv, CamPosFlag, CamPosDefault) else Override(CamPosDefault, None);
    var target := if cameraCli then CameraOverride(argv, CamTargetFlag, CamTargetDefault) else Override(CamTargetDefault, None);
    var mesh := ResolveMesh(argv, assetDir);
    var meshWarning := if mesh.unknownKey.Some? then Some(UnknownMesh(mesh.unknownKey.value)) else None;
    Config(SampleCount(argv), pos.value, target.value, mesh.path,
      WarningList(pos.warning) + WarningList(target.warning) + WarningList(meshWarning))
  }

  /** `(int)diff`: conversion of a `double` to `int` truncates toward zero. */
  function TruncateToInt(d: real): (n: int)
    ensures d >= 0.0 ==> n as real <= d < n as real + 1.0
    ensures d < 0.0 ==> n as real - 1.0 < d <= n as real
  {
    if d >= 0.0 then d.Floor else -((-d).Floor)
  }

  /** C's `/` on `int`, which truncates toward zero; the divisor here is positive. */
  function CDiv(a: int, b: int): (q: int)
    requires b > 0
    ensures 0 <= a ==> 0 <= a - q * b < b
    ensures a < 0 ==> -b < a - q * b <= 0
  {
    if a >= 0 then a / b else -((-a) / b)
  }

  datatype Duration = Duration(hrs: int, mins: int, secs: int)

  /** The `Time Taken` line: whole seconds split into hours, minutes and seconds. */
  function SplitElapsed(diff: real): (r: Duration)
    ensures r.hrs * 3600 + r.mins * 60 + r.secs == TruncateToInt(diff)
    ensures diff >= 0.0 ==> 0 <= r.hrs && 0 <= r.mins < 60 && 0 <= r.secs < 60
    ensures diff < 0.0 ==> r.hrs <= 0 && -60 < r.mins <= 0 && -60 < r.secs <= 0
    ensures diff >= 0.0 ==>
      r == Duration(TruncateToInt(diff) / 3600, TruncateToInt(diff) % 3600 / 60, TruncateToInt(diff) % 60)
  {
    var t := TruncateToInt(diff);
    var hrs := CDiv(t, 3600);
    var mins := CDiv(t, 60) - hrs * 60;
    var secs := t - hrs * 3600 - mins * 60;
    Duration(hrs, mins, secs)
  }
}

=== FILE: mesh.dfy ===
/**
 * Mesh-path resolution in `main`: `--obj <path>` names a file directly and
 * beats `--mesh <name>`, which is looked up, case-insensitively, in a
 * fixed preset table; anything else falls back to `dragon2.obj`.
 */
module Mesh {
  import opened Options
  import opened CString
  import opened Flags

  /** `ASSET_DIR` when the build does not define it. */
  const DefaultAssetDir: string := "../obj"
  const ObjFlag: string := "--obj"
  const MeshFlag: string := "--mesh"
  const FallbackSuffix: string := "/dragon2.obj"

  /** `kPresets`: preset name to path suffix under the asset directory. */
  const Presets: map<string, string> := map[
    "lucy" := "/lucy01.obj",
    "sculpt" := "/sculpt.obj",
    "dragon" := "/dragon01.obj",
    "dragon2" := "/dragon2.obj"
  ]

  /** The resolved path, and the lower-cased key when it was reported as unknown. */
  datatype MeshChoice = MeshChoice(path: string, unknownKey: Option<string>)

  /** Absolute or dot-relative: kept as given. */
  predicate IsExplicitPath(v: string) {
    0 < |v| && (v[0] == '/' || v[0] == '.')
  }

  /** The `--obj` branch: a value that is not explicit is placed under the asset directory. */
  function ObjPath(assetDir: string, v: string): (path: string)
    ensures 0 < |path|
    ensures |v| <= |path| && path[|path| - |v|..] == v
    ensures path == v <==> IsExplicitPath(v)
    ensures !IsExplicitPath(v) ==> HasPrefix(path, assetDir + "/")
    ensures !IsExplicitPath(v) ==> |path| == |assetDir| + 1 + |v|
  {
    if IsExplicitPath(v) then v else assetDir + "/" + v
  }

  /** The `--mesh` branch, given the flag's value (`None` when absent). */
  function PresetChoice(assetDir: string, meshValue: Option<string>): (r: MeshChoice)
    ensures exists k :: k in Presets && r.path == assetDir + Presets[k]
    ensures r.unknownKey.Some? <==>
      meshValue.Some? && ToLower(meshValue.value) != "" && ToLower(meshValue.value) !in Presets
  {
    var key := if meshValue.Some? then ToLower(meshValue.value) else "";
    if key != "" && key in Presets then MeshChoice(assetDir + Presets[key], None)
    else
      assert "dragon2" in Presets;
      MeshChoice(assetDir + FallbackSuffix, if key != "" then Some(key) else None)
  }

  /** The mesh path `main` builds, and whether it warned about an unknown preset. */
  function ResolveMesh(argv: seq<string>, assetDir: string): (r: MeshChoice)
    ensures 0 < |r.path|
    ensures GetFlagValue(argv, ObjFlag).Some? ==>
      r == MeshChoice(ObjPath(assetDir, GetFlagValue(argv, ObjFlag).value), None)
    ensures GetFlagValue(argv, ObjFlag).None? ==>
      exists k :: k in Presets && r.path == assetDir + Presets[k]
    ensures var m := GetFlagValue(argv, MeshFlag);
      GetFlagValue(argv, ObjFlag).None? && m.Some? && ToLower(m.value) in Presets ==>
        r == MeshChoice(assetDir + Presets[ToLower(m.value)], None)
    ensures var m := GetFlagValue(argv, MeshFlag);
      GetFlagValue(argv, ObjFlag).None? && (m.None? || ToLower(m.value) !in Presets) ==>
        r == MeshChoice(assetDir + FallbackSuffix, if m.Some? && m.value != "" then Some(ToLower(m.value)) else None)
  {
    match GetFlagValue(argv, ObjFlag)
    case Some(v) => MeshChoice(ObjPath(assetDir, v), None)
    case None => PresetChoice(assetDir, GetFlagValue(argv, MeshFlag))
  }

  /** A known preset name, in any letter case, selects its file. */
  lemma KnownPresetSelected(assetDir: string, m: string)
    requires ToLower(m) in Presets
    ensures PresetChoice(assetDir, Some(m)) == MeshChoice(assetDir + Presets[ToLower(m)], None)
  {
    assert ToLower(m) != "" by {
      assert "" !in Presets;
    }
  }

  /** An unknown non-empty name is reported and falls back to `dragon2.obj`; so does an absent or empty one, silently. */
  lemma FallbackToDragon2(assetDir: string, meshValue: Option<string>)
    requires meshValue.None? || ToLower(meshValue.value) !in Presets
    ensures PresetChoice(assetDir, meshValue).path == assetDir + FallbackSuffix
    ensures PresetChoice(assetDir, meshValue).unknownKey ==
      if meshValue.Some? && meshValue.value != "" then Some(ToLower(meshValue.value)) else None
  {
  }

  /** Preset lookup ignores letter case. */
  lemma PresetCaseInsensitive(assetDir: string, m1: string, m2: string)
    requires ToLower(m1) == ToLower(m2)
    ensures PresetChoice(assetDir, Some(m1)) == PresetChoice(assetDir, Some(m2))
  {
  }

  /** With `--obj` present, no `--mesh` value has any effect. */
  lemma ObjTakesPrecedence(argv1: seq<string>, argv2: seq<string>, assetDir: string)
    requires GetFlagValue(argv1, ObjFlag).Some?
    requires GetFlagValue(argv1, ObjFlag) == GetFlagValue(argv2, ObjFlag)
    ensures ResolveMesh(argv1, assetDir) == ResolveMesh(argv2, assetDir)
  {
  }

  /** `--mesh=LUCY` resolves to the default asset directory's `lucy01.obj`. */
  lemma LucyExample()
    ensures ResolveMesh(["pathtracer", "--mesh=LUCY"], DefaultAssetDir).path == "../obj/lucy01.obj"
  {
    var argv := ["pathtracer", "--mesh=LUCY"];
    assert MatchAt(argv, ObjFlag, 1).None? by {
      assert argv[1][..|ObjFlag|] != ObjFlag by {
        assert argv[1][2] == 'm';
      }
    }
    assert MatchAt(argv, MeshFlag, 1) == Some("LUCY") by {
      assert argv[1][..|MeshFlag|] == MeshFlag;
      assert argv[1][|MeshFlag| + 1..] == "LUCY";
    }
    assert ToLower("LUCY") == "lucy";
    KnownPresetSelected(DefaultAssetDir, "LUCY");
  }
}

=== FILE: options.dfy ===
/** The optional value used wherever the C++ code returns a null pointer or a `false` flag. */
module Options {
  datatype Option<+T> = None | Some(value: T)
}

=== FILE: render.dfy ===
/**
 * `Renderer::render`: every row gets its own erand48 seed, every pixel
 * averages `samples` radiance estimates, the row-major buffer holds the
 * averages, and a progress line is printed every third finished row.
 *
 * The camera and the scene (`get_ray` followed by `trace_ray`) are one
 * abstract `Sampler`: given the pixel, the jitter flag and the current
 * seed it returns a radiance estimate and the advanced seed.
 */
module Render {
  import opened Vector

  const U32: int := 0x1_0000_0000
  const U16: int := 0x1_0000

  /** The three `unsigned short` words of an erand48 state `Xi`. */
  datatype Seed = Seed(x0: int, x1: int, x2: int)

  predicate IsWord(w: int) { 0 <= w < U16 }

  predicate ValidSeed(s: Seed) { IsWord(s.x0) && IsWord(s.x1) && IsWord(s.x2) }

  /** Division with remainder is unique. */
  lemma DivModUnique(m: int, n: int, q: int, r: int)
    requires 0 < n && 0 <= r < n && m == n * q + r
    ensures m / n == q && m % n == r
  {
    var d := q - m / n;
    assert n * d == m % n - r;
  }

  lemma ModShift(a: int, t: int, n: int)
    requires 0 < n
    ensures (a + n * t) % n == a % n
  {
    assert a + n * t == n * (a / n + t) + a % n;
    DivModUnique(a + n * t, n, a / n + t, a % n);
  }

  /** Reducing modulo 2^32 first does not change the value modulo 2^16. */
  lemma ModNarrow(a: int)
    ensures (a % U32) % U16 == a % U16
  {
    assert a % U32 == a + U16 * (-(U16 * (a / U32)));
    ModShift(a, -(U16 * (a / U32)), U16);
  }

  /**
   * One seed word, computed as the source does: `y` converted to
   * `unsigned`, multiplied and incremented with 32-bit wrap-around, then
   * masked with `0xFFFF`. The result is the mathematical `y * k + c`
   * modulo 2^16 (for a non-negative value, masking with `0xFFFF` is `% 2^16`).
   */
  function SeedWord(y: int, k: nat, c: nat): (w: int)
    ensures IsWord(w)
    ensures w == (y * k + c) % U16
  {
    var u := y % U32;
    var product := (u * k) % U32;
    var sum := (product + c) % U32;
    SeedWordValue(y, k, c, u, product, sum);
    sum % U16
  }

  lemma SeedWordValue(y: int, k: nat, c: nat, u: int, product: int, sum: int)
    requires u == y % U32 && product == (u * k) % U32 && sum == (product + c) % U32
    ensures sum % U16 == (y * k + c) % U16
  {
    ModNarrow(product + c);
    var p := product + c;
    // p differs from u * k + c by a multiple of 2^32, hence of 2^16
    assert p == u * k + c + U16 * (-(U16 * ((u * k) / U32)));
    ModShift(u * k + c, -(U16 * ((u * k) / U32)), U16);
    // u * k + c differs from y * k + c by a multiple of 2^16
    assert u * k + c == y * k + c + U16 * (-(U16 * (y / U32) * k));
    ModShift(y * k + c, -(U16 * (y / U32) * k), U16);
  }

  /** The per-row seed `Xi` of row `y`. */
  function RowSeed(y: int): (s: Seed)
    ensures ValidSeed(s)
    ensures s == Seed((y * 9781 + 1) % U16, (y * 6271 + 2) % U16, (y * 151 + 3) % U16)
  {
    Seed(SeedWord(y, 9781, 1), SeedWord(y, 6271, 2), SeedWord(y, 151, 3))
  }

  /** Seeds repeat with period 2^16 in the row number. */
  lemma RowSeedPeriodic(y: int)
    ensures RowSeed(y + U16) == RowSeed(y)
  {
    ModShift(y * 9781 + 1, 9781, U16);
    ModShift(y * 6271 + 2, 6271, U16);
    ModShift(y * 151 + 3, 151, U16);
  }

  // ---------------------------------------------------------------------------
  // Pixel indexing
  // ---------------------------------------------------------------------------

  /** `y * width + x`, the row-major buffer slot of pixel `(x, y)`. */
  function PixelIndex(x: int, y: int, width: int): (k: int)
    ensures 0 <= x < width && 0 <= y ==> 0 <= y * width <= k < (y + 1) * width
  {
    y * width + x
  }

  lemma PixelIndexInBuffer(x: int, y: int, width: int, height: int)
    requires 0 <= x < width && 0 <= y < height
    ensures 0 <= PixelIndex(x, y, width) < width * height
  {
    MulMonotone(y + 1, height, width);
  }

  lemma MulMonotone(a: int, b: int, c: int)
    requires a <= b && 0 <= c
    ensures a * c <= b * c
  {
    assert b * c - a * c == (b - a) * c;
  }

  /** Distinct pixels of an image own distinct slots. */
  lemma PixelIndexInjective(x1: int, y1: int, x2: int, y2: int, width: int)
    requires 0 <= x1 < width && 0 <= y1 && 0 <= x2 < width && 0 <= y2
    requires PixelIndex(x1, y1, width) == PixelIndex(x2, y2, width)
    ensures x1 == x2 && y1 == y2
  {
    var k := PixelIndex(x1, y1, width);
    DivModUnique(k, width, y1, x1);
    DivModUnique(k, width, y2, x2);
  }

  /** Every slot of the buffer belongs to exactly the pixel `(k % w, k / w)`. */
  lemma PixelOfIndex(k: int, width: int, height: int)
    requires 0 < width && 0 <= k < width * height
    ensures 0 <= k % width < width && 0 <= k / width < height
    ensures PixelIndex(k % width, k / width, width) == k
  {
  }

  // ---------------------------------------------------------------------------
  // Sampling one pixel
  // ---------------------------------------------------------------------------

  /** `get_ray` then `trace_ray`: (x, y, jitter, seed) to (radiance, seed'). */
  type Sampler = (int, int, bool, Seed) -> (Vec, Seed)

  /** One iteration of the sample loop. */
  datatype Draw = Draw(jitter: bool, seedIn: Seed, value: Vec, seedOut: Seed)

  /** Iterations `a, a+1, ..., n-1` of the sample loop of pixel `(x, y)`. */
  function Draws(sample: Sampler, x: int, y: int, a: nat, n: nat, seed: Seed): (ds: seq<Draw>)
    requires a <= n
    ensures |ds| == n - a
    ensures forall i :: 0 <= i < |ds| ==> ds[i].jitter == (a + i > 0)
    ensures forall i :: 0 <= i < |ds| ==>
      sample(x, y, ds[i].jitter, ds[i].seedIn) == (ds[i].value, ds[i].seedOut)
    ensures |ds| > 0 ==> ds[0].seedIn == seed
    ensures forall i :: 0 < i < |ds| ==> ds[i].seedIn == ds[i - 1].seedOut
    decreases n - a
  {
    if a == n then []
    else
      var (v, next) := sample(x, y, a > 0, seed);
      [Draw(a > 0, seed, v, next)] + Draws(sample, x, y, a + 1, n, next)
  }

  /** `col`: the running sum of the drawn values, starting from `Vec()`. */
  function Sum(ds: seq<Draw>): Vec
  {
    if |ds| == 0 then Vec() else Add(Sum(ds[..|ds| - 1]), ds[|ds| - 1].value)
  }

  /** `col * samples_recp` with `samples_recp = 1. / samples`. */
  function Average(ds: seq<Draw>, samples: int): Vec
    requires 1 <= samples
  {
    Scale(Sum(ds), 1.0 / samples as real)
  }

  /** The seed left behind by a run of draws. */
  function SeedAfter(ds: seq<Draw>, seed: Seed): Seed
  {
    if |ds| == 0 then seed else ds[|ds| - 1].seedOut
  }

  datatype PixelRun = PixelRun(colour: Vec, seedOut: Seed)

  /** The value written for pixel `(x, y)` and the seed after its samples. */
  function RenderPixel(sample: Sampler, x: int, y: int, samples: int, seed: Seed): (p: PixelRun)
    requires 1 <= samples
  {
    var ds := Draws(sample, x, y, 0, samples, seed);
    PixelRun(Average(ds, samples), SeedAfter(ds, seed))
  }

  lemma {:induction false} SumOfConstant(ds: seq<Draw>, v: Vec)
    requires forall i :: 0 <= i < |ds| ==> ds[i].value == v
    ensures Sum(ds) == Scale(v, |ds| as real)
  {
    if |ds| > 0 {
      SumOfConstant(ds[..|ds| - 1], v);
    }
  }

  /** A pixel whose every sample returns `v` is written as `v`. */
  lemma AverageOfConstant(ds: seq<Draw>, samples: int, v: Vec)
    requires 1 <= samples && |ds| == samples
    requires forall i :: 0 <= i < |ds| ==> ds[i].value == v
    ensures Average(ds, samples) == v
  {
    SumOfConstant(ds, v);
    var n := samples as real;
    assert n * (1.0 / n) == 1.0;
  }

  /** Every coordinate of every sample lies within `[lo, hi]`. */
  predicate SamplesWithin(ds: seq<Draw>, lo: real, hi: real)
  {
    forall i, c :: 0 <= i < |ds| && 0 <= c < 3 ==> lo <= Index(ds[i].value, c) <= hi
  }

  /** Channel `c` of the running sum, as a sum of reals. */
  function ChannelSum(ds: seq<Draw>, c: int): real
  {
    if |ds| == 0 then 0.0 else ChannelSum(ds[..|ds| - 1], c) + Index(ds[|ds| - 1].value, c)
  }

  lemma {:induction false} SumChannel(ds: seq<Draw>, c: int)
    ensures Index(Sum(ds), c) == ChannelSum(ds, c)
  {
    if |ds| > 0 {
      SumChannel(ds[..|ds| - 1], c);
    }
  }

  /** `n` copies of `r` added up. */
  function Repeated(n: nat, r: real): real
  {
    if n == 0 then 0.0 else Repeated(n - 1, r) + r
  }

  lemma {:induction false} RepeatedIsProduct(n: nat, r: real)
    ensures Repeated(n, r) == n as real * r
  {
    if n > 0 {
      RepeatedIsProduct(n - 1, r);
      assert n as real * r == (n - 1) as real * r + r;
    }
  }

  lemma {:induction false} ChannelSumWithin(ds: seq<Draw>, lo: real, hi: real, c: int)
    requires SamplesWithin(ds, lo, hi) && 0 <= c < 3
    ensures Repeated(|ds|, lo) <= ChannelSum(ds, c) <= Repeated(|ds|, hi)
  {
    if |ds| > 0 {
      var front := ds[..|ds| - 1];
      assert SamplesWithin(front, lo, hi) by {
        forall i, c' | 0 <= i < |front| && 0 <= c' < 3
          ensures lo <= Index(front[i].value, c') <= hi
        {
          assert front[i] == ds[i];
        }
      }
      ChannelSumWithin(front, lo, hi, c);
      assert lo <= Index(ds[|ds| - 1].value, c) <= hi;
    }
  }

  lemma DivideBounds(s: real, n: real, lo: real, hi: real)
    requires 0.0 < n && lo * n <= s <= hi * n
    ensures lo <= s * (1.0 / n) <= hi
  {
    assert s * (1.0 / n) == s / n;
    assert lo * n / n == lo && hi * n / n == hi;
  }

  lemma AverageChannel(ds: seq<Draw>, samples: int, c: int)
    requires 1 <= samples
    ensures Index(Average(ds, samples), c) == ChannelSum(ds, c) * (1.0 / samples as real)
  {
    SumChannel(ds, c);
  }

  /** The average lies within the bounds of the samples. */
  lemma AverageWithin(ds: seq<Draw>, samples: int, lo: real, hi: real)
    requires 1 <= samples && |ds| == samples
    requires SamplesWithin(ds, lo, hi)
    ensures forall c :: 0 <= c < 3 ==> lo <= Index(Average(ds, samples), c) <= hi
  {
    forall c | 0 <= c < 3
      ensures lo <= Index(Average(ds, samples), c) <= hi
    {
      AverageChannelWithin(ds, samples, lo, hi, c);
    }
  }

  lemma AverageChannelWithin(ds: seq<Draw>, samples: int, lo: real, hi: real, c: int)
    requires 1 <= samples && |ds| == samples && 0 <= c < 3
    requires SamplesWithin(ds, lo, hi)
    ensures lo <= Index(Average(ds, samples), c) <= hi
  {
    var n := samples as real;
    var total := ChannelSum(ds, c);
    ChannelSumWithin(ds, lo, hi, c);
    RepeatedIsProduct(samples, lo);
    RepeatedIsProduct(samples, hi);
    assert lo * n <= total <= hi * n;
    DivideBounds(total, n, lo, hi);
    AverageChannel(ds, samples, c);
  }

  // ---------------------------------------------------------------------------
  // Rows and the pixel buffer
  // ---------------------------------------------------------------------------

  /**
   * Pixels `x .. width-1` of row `y`: each pixel starts from the seed the
   * previous pixel of the row left behind.
   */
  function RowRuns(sample: Sampler, y: int, x: nat, width: int, samples: int, seed: Seed): (runs: seq<PixelRun>)
    requires 1 <= samples
    ensures |runs| == if x < width then width - x else 0
    ensures |runs| > 0 ==> runs[0] == RenderPixel(sample, x, y, samples, seed)
    ensures forall i :: 0 < i < |runs| ==>
      runs[i] == RenderPixel(sample, x + i, y, samples, runs[i - 1].seedOut)
    decreases width - x
  {
    if x >= width then []
    else
      var p := RenderPixel(sample, x, y, samples, seed);
      [p] + RowRuns(sample, y, x + 1, width, samples, p.seedOut)
  }

  /** Row `y` as written to the buffer; its seed is `RowSeed(y)` whatever the other rows do. */
  function Row(sample: Sampler, y: int, width: int, samples: int): (row: seq<Vec>)
    requires 1 <= samples
    ensures |row| == if 0 < width then width else 0
  {
    var runs := RowRuns(sample, y, 0, width, samples, RowSeed(y));
    seq(|runs|, i requires 0 <= i < |runs| => runs[i].colour)
  }

  /** Two samplers that answer alike for every pixel of row `y`, jitter flag and seed. */
  ghost predicate SameOnRow(s1: Sampler, s2: Sampler, y: int) {
    forall x, j, seed :: s1(x, y, j, seed) == s2(x, y, j, seed)
  }

  lemma {:induction false} DrawsOnRow(s1: Sampler, s2: Sampler, x: int, y: int, a: nat, n: nat, seed: Seed)
    requires a <= n && SameOnRow(s1, s2, y)
    ensures Draws(s1, x, y, a, n, seed) == Draws(s2, x, y, a, n, seed)
    decreases n - a
  {
    if a < n {
      assert s1(x, y, a > 0, seed) == s2(x, y, a > 0, seed);
      DrawsOnRow(s1, s2, x, y, a + 1, n, s1(x, y, a > 0, seed).1);
    }
  }

  lemma {:induction false} RowRunsOnRow(s1: Sampler, s2: Sampler, y: int, x: nat, width: int, samples: int, seed: Seed)
    requires 1 <= samples && SameOnRow(s1, s2, y)
    ensures RowRuns(s1, y, x, width, samples, seed) == RowRuns(s2, y, x, width, samples, seed)
    decreases width - x
  {
    if x < width {
      DrawsOnRow(s1, s2, x, y, 0, samples, seed);
      var p := RenderPixel(s1, x, y, samples, seed);
      assert p == RenderPixel(s2, x, y, samples, seed);
      RowRunsOnRow(s1, s2, y, x + 1, width, samples, p.seedOut);
    }
  }

  /**
   * Row `y` depends on nothing but what the camera and scene answer for the
   * pixels of row `y`: the rows of the parallel loop do not interact.
   */
  lemma RowOnlyOnItsPixels(s1: Sampler, s2: Sampler, y: int, width: int, samples: int)
    requires 1 <= samples && SameOnRow(s1, s2, y)
    ensures Row(s1, y, width, samples) == Row(s2, y, width, samples)
  {
    RowRunsOnRow(s1, s2, y, 0, width, samples, RowSeed(y));
  }

  /** Rows of equal width laid end to end. */
  function Flatten(rows: seq<seq<Vec>>, width: nat): (buf: seq<Vec>)
    requires forall y :: 0 <= y < |rows| ==> |rows[y]| == width
    ensures |buf| == width * |rows|
    ensures forall x, y :: 0 <= x < width && 0 <= y < |rows| ==>
      PixelIndex(x, y, width) < |buf| && buf[PixelIndex(x, y, width)] == rows[y][x]
    decreases |rows|
  {
    if |rows| == 0 then []
    else
      var front := Flatten(rows[..|rows| - 1], width);
      var buf := front + rows[|rows| - 1];
      FlattenSlots(rows, width, front, buf);
      buf
  }

  lemma FlattenSlots(rows: seq<seq<Vec>>, width: nat, front: seq<Vec>, buf: seq<Vec>)
    requires 0 < |rows| && forall y :: 0 <= y < |rows| ==> |rows[y]| == width
    requires |front| == width * (|rows| - 1)
    requires forall x, y :: 0 <= x < width && 0 <= y < |rows| - 1 ==>
      PixelIndex(x, y, width) < |front| && front[PixelIndex(x, y, width)] == rows[..|rows| - 1][y][x]
    requires buf == front + rows[|rows| - 1]
    ensures |buf| == width * |rows|
    ensures forall x, y :: 0 <= x < width && 0 <= y < |rows| ==>
      PixelIndex(x, y, width) < |buf| && buf[PixelIndex(x, y, width)] == rows[y][x]
  {
    var h := |rows|;
    assert |buf| == width * (h - 1) + width == width * h;
    forall x, y | 0 <= x < width && 0 <= y < h
      ensures PixelIndex(x, y, width) < |buf| && buf[PixelIndex(x, y, width)] == rows[y][x]
    {
      if y == h - 1 {
        assert PixelIndex(x, y, width) == |front| + x;
      } else {
        assert rows[..h - 1][y] == rows[y];
        assert buf[PixelIndex(x, y, width)] == front[PixelIndex(x, y, width)];
      }
    }
  }

  /** The whole buffer: rows `0 .. height-1` laid out in row-major order. */
  function Image(sample: Sampler, width: nat, height: nat, samples: int): (img: seq<Vec>)
    requires 1 <= samples
    ensures |img| == width * height
    ensures forall x, y :: 0 <= x < width && 0 <= y < height ==>
      PixelIndex(x, y, width) < |img| && img[PixelIndex(x, y, width)] == Row(sample, y, width, samples)[x]
  {
    var rows := seq(height, y requires 0 <= y < height => Row(sample, y, width, samples));
    Flatten(rows, width)
  }

  /** `new Vec[width * height]`: every slot default-constructed. */
  function Blank(n: nat): (buf: seq<Vec>)
    ensures |buf| == n
  {
    seq(n, _ => Vec())
  }

  /** Storing one finished row into the buffer; every other slot is unchanged. */
  function WriteRow(buf: seq<Vec>, y: nat, width: nat, row: seq<Vec>): (r: seq<Vec>)
    requires |row| == width && (y + 1) * width <= |buf|
    ensures |r| == |buf|
    ensures forall k :: 0 <= k < |buf| ==>
      r[k] == if y * width <= k < (y + 1) * width then row[k - y * width] else buf[k]
  {
    buf[..y * width] + row + buf[(y + 1) * width..]
  }

  /** Slots of different rows are different. */
  lemma RowSlots(x: int, y: int, y0: int, width: int)
    requires 0 <= x < width && 0 <= y && 0 <= y0
    ensures y0 * width <= PixelIndex(x, y, width) < (y0 + 1) * width <==> y == y0
    ensures y == y0 ==> PixelIndex(x, y, width) - y0 * width == x
  {
    if y0 * width <= PixelIndex(x, y, width) < (y0 + 1) * width {
      DivModUnique(PixelIndex(x, y, width), width, y, x);
      DivModUnique(PixelIndex(x, y, width), width, y0, PixelIndex(x, y, width) - y0 * width);
    }
  }

  lemma WriteRowPixels(buf: seq<Vec>, y0: nat, width: nat, height: nat, row: seq<Vec>, r: seq<Vec>)
    requires |row| == width && y0 < height && |buf| == width * height
    requires (y0 + 1) * width <= |buf| && r == WriteRow(buf, y0, width, row)
    ensures forall x, y :: 0 <= x < width && 0 <= y < height ==>
      PixelIndex(x, y, width) < |r| &&
      r[PixelIndex(x, y, width)] == if y == y0 then row[x] else buf[PixelIndex(x, y, width)]
  {
    forall x, y | 0 <= x < width && 0 <= y < height
      ensures PixelIndex(x, y, width) < |r| &&
        r[PixelIndex(x, y, width)] == if y == y0 then row[x] else buf[PixelIndex(x, y, width)]
    {
      PixelIndexInBuffer(x, y, width, height);
      RowSlots(x, y, y0, width);
    }
  }

  lemma RowFits(y: nat, width: nat, height: nat)
    requires y < height
    ensures (y + 1) * width <= width * height
  {
    assert (y + 1) * width <= height * width;
  }

  /**
   * The rows finished by the worker threads, stored in the order `order`
   * in which they completed (the dynamic OpenMP schedule picks any order).
   * A slot holds its row's pixel once that row is done, and `Vec()` before.
   */
  function RunRows(sample: Sampler, width: nat, height: nat, samples: int, order: seq<nat>): (buf: seq<Vec>)
    requires 1 <= samples
    requires forall i :: 0 <= i < |order| ==> order[i] < height
    ensures |buf| == width * height
    ensures forall x, y :: 0 <= x < width && 0 <= y < height ==>
      PixelIndex(x, y, width) < |buf| &&
      buf[PixelIndex(x, y, width)] == if y in order then Row(sample, y, width, samples)[x] else Vec()
    decreases |order|
  {
    if |order| == 0 then
      var buf := Blank(width * height);
      BlankPixels(buf, width, height);
      buf
    else
      var before := RunRows(sample, width, height, samples, order[..|order| - 1]);
      var y0 := order[|order| - 1];
      RowFits(y0, width, height);
      var buf := WriteRow(before, y0, width, Row(sample, y0, width, samples));
      WriteRowPixels(before, y0, width, height, Row(sample, y0, width, samples), buf);
      OrderMembership(order);
      buf
  }

  lemma BlankPixels(buf: seq<Vec>, width: nat, height: nat)
    requires buf == Blank(width * height)
    ensures forall x, y :: 0 <= x < width && 0 <= y < height ==>
      PixelIndex(x, y, width) < |buf| && buf[PixelIndex(x, y, width)] == Vec()
  {
    forall x, y | 0 <= x < width && 0 <= y < height
      ensures PixelIndex(x, y, width) < |buf| && buf[PixelIndex(x, y, width)] == Vec()
    {
      PixelIndexInBuffer(x, y, width, height);
    }
  }

  lemma OrderMembership(order: seq<nat>)
    requires 0 < |order|
    ensures forall y :: y in order <==> y in order[..|order| - 1] || y == order[|order| - 1]
  {
    assert order == order[..|order| - 1] + [order[|order| - 1]];
  }

  /**
   * Rows are independent: whatever order the rows finish in, once every
   * row is done the buffer is the row-major image.
   */
  lemma AnyScheduleGivesImage(sample: Sampler, width: nat, height: nat, samples: int, order: seq<nat>)
    requires 1 <= samples
    requires forall i :: 0 <= i < |order| ==> order[i] < height
    requires forall y :: 0 <= y < height ==> y in order
    ensures RunRows(sample, width, height, samples, order) == Image(sample, width, height, samples)
  {
    var buf := RunRows(sample, width, height, samples, order);
    var img := Image(sample, width, height, samples);
    if width == 0 {
      assert |buf| == 0 == |img|;
    } else {
      forall k | 0 <= k < |buf|
        ensures k < |img| && buf[k] == img[k]
      {
        SlotAgrees(buf, img, sample, width, height, samples, order, k);
      }
      SameSlots(buf, img);
    }
  }

  lemma SameSlots(a: seq<Vec>, b: seq<Vec>)
    requires |a| == |b| && forall k :: 0 <= k < |a| ==> a[k] == b[k]
    ensures a == b
  {
  }

  lemma SlotAgrees(buf: seq<Vec>, img: seq<Vec>, sample: Sampler, width: nat, height: nat, samples: int,
                   order: seq<nat>, k: int)
    requires 1 <= samples && 0 < width && 0 <= k < width * height
    requires forall i :: 0 <= i < |order| ==> order[i] < height
    requires forall y :: 0 <= y < height ==> y in order
    requires buf == RunRows(sample, width, height, samples, order)
    requires img == Image(sample, width, height, samples)
    ensures |buf| == |img| && buf[k] == img[k]
  {
    PixelOfIndex(k, width, height);
    var x, y := k % width, k / width;
    assert y in order;
    assert buf[PixelIndex(x, y, width)] == Row(sample, y, width, samples)[x];
  }

  // ---------------------------------------------------------------------------
  // Progress reporting
  // ---------------------------------------------------------------------------

  /** The throttle: a progress line after the `done`-th finished row. */
  predicate Reports(done: int, height: int)
  {
    done == height || done % 3 == 0
  }

  /** Only the line for the last row ends with a newline. */
  predicate EndsLine(done: int, height: int)
  {
    done == height
  }

  datatype Report = Report(rowsDone: int, newline: bool)

  /**
   * The progress lines printed while the row counter runs through
   * `1 .. done`, in counter order.
   */
  function ProgressLog(height: nat, done: nat): (log: seq<Report>)
    requires done <= height
    ensures |log| <= done
    decreases done
  {
    if done == 0 then []
    else
      var front := ProgressLog(height, done - 1);
      if Reports(done, height) then front + [Report(done, EndsLine(done, height))] else front
  }

  /**
   * Every progress line is for a count from 1 to `done` that the throttle lets
   * through, ends the line exactly when it is the last row's, and follows a
   * line for a smaller count.
   */
  lemma {:induction false} ProgressLogSpec(height: nat, done: nat)
    requires done <= height
    ensures var log := ProgressLog(height, done);
      && (forall i :: 0 <= i < |log| ==> 1 <= log[i].rowsDone <= done && Reports(log[i].rowsDone, height))
      && (forall i :: 0 <= i < |log| ==> (log[i].newline <==> log[i].rowsDone == height))
      && (forall i :: 0 < i < |log| ==> log[i - 1].rowsDone < log[i].rowsDone)
  {
    var log := ProgressLog(height, done);
    forall i | 0 <= i < |log|
      ensures 1 <= log[i].rowsDone <= done && Reports(log[i].rowsDone, height)
      ensures log[i].newline <==> log[i].rowsDone == height
      ensures 0 < i ==> log[i - 1].rowsDone < log[i].rowsDone
    {
      ProgressEntry(height, done, i);
    }
  }

  lemma {:induction false} ProgressEntry(height: nat, done: nat, i: int)
    requires done <= height && 0 <= i < |ProgressLog(height, done)|
    ensures var log := ProgressLog(height, done);
      && 1 <= log[i].rowsDone <= done && Reports(log[i].rowsDone, height)
      && (log[i].newline <==> log[i].rowsDone == height)
      && (0 < i ==> log[i - 1].rowsDone < log[i].rowsDone)
  {
    var log := ProgressLog(height, done);
    var front := ProgressLog(height, done - 1);
    if !Reports(done, height) {
      assert log == front;
      ProgressEntry(height, done - 1, i);
    } else {
      assert log == front + [Report(done, EndsLine(done, height))];
      if i < |front| {
        ProgressEntry(height, done - 1, i);
        assert log[i] == front[i];
        if 0 < i {
          assert log[i - 1] == front[i - 1];
        }
      } else if 0 < i {
        ProgressEntry(height, done - 1, i - 1);
        assert log[i - 1] == front[i - 1];
      }
    }
  }

  /** Every row count the throttle lets through up to `done` has its line. */
  lemma {:induction false} ProgressComplete(height: nat, done: nat, d: int)
    requires done <= height && 1 <= d <= done && Reports(d, height)
    ensures exists i :: 0 <= i < |ProgressLog(height, done)| && ProgressLog(height, done)[i].rowsDone == d
  {
    var log := ProgressLog(height, done);
    if d == done {
      assert log[|log| - 1].rowsDone == d;
    } else {
      ProgressComplete(height, done - 1, d);
      var front := ProgressLog(height, done - 1);
      var i :| 0 <= i < |front| && front[i].rowsDone == d;
      assert log[i] == front[i];
    }
  }

  /** One progress line per three rows, plus one for a last row that is not a multiple of three. */
  lemma {:induction false} ProgressCount(height: nat, done: nat)
    requires done <= height
    ensures |ProgressLog(height, done)| == done / 3 + (if done == height && height % 3 != 0 then 1 else 0)
  {
    if done > 0 {
      ProgressCount(height, done - 1);
      var front := ProgressLog(height, done - 1);
      assert (done - 1) / 3 == |front|;
      if done % 3 == 0 {
        assert done / 3 == (done - 1) / 3 + 1;
      } else {
        assert done / 3 == (done - 1) / 3;
      }
    }
  }

  /** Once three rows are done, the latest progress line is at most three rows behind. */
  lemma {:induction false} ProgressRecent(height: nat, done: nat)
    requires 3 <= done <= height
    ensures var log := ProgressLog(height, done);
      0 < |log| && done - 3 < log[|log| - 1].rowsDone
  {
    var log := ProgressLog(height, done);
    if Reports(done, height) {
      assert log[|log| - 1].rowsDone == done;
    } else {
      assert done != 3;
      ProgressRecent(height, done - 1);
      assert log == ProgressLog(height, done - 1);
      ProgressEntry(height, done - 1, |log| - 1);
      assert (done - 3) % 3 == done % 3;
    }
  }

  /** The first progress line comes within the first three rows. */
  lemma ProgressFirst(height: nat, done: nat)
    requires done <= height
    ensures var log := ProgressLog(height, done);
      0 < |log| ==> log[0].rowsDone <= 3
  {
    if 3 <= done {
      ProgressFirstFrom(height, done);
    }
  }

  lemma {:induction false} ProgressFirstFrom(height: nat, done: nat)
    requires 3 <= done <= height
    ensures var log := ProgressLog(height, done);
      0 < |log| && log[0].rowsDone <= 3
  {
    var log := ProgressLog(height, done);
    if done == 3 {
      var front := ProgressLog(height, 2);
      if 0 < |front| {
        ProgressEntry(height, 2, 0);
        assert log[0] == front[0];
      }
    } else {
      ProgressFirstFrom(height, done - 1);
      var front := ProgressLog(height, done - 1);
      assert log[0] == front[0];
    }
  }

  /** Consecutive progress lines are at most three rows apart. */
  lemma ProgressGaps(height: nat, done: nat)
    requires done <= height
    ensures var log := ProgressLog(height, done);
      forall i :: 0 < i < |log| ==> log[i].rowsDone - log[i - 1].rowsDone <= 3
  {
    var log := ProgressLog(height, done);
    forall i | 0 < i < |log|
      ensures log[i].rowsDone - log[i - 1].rowsDone <= 3
    {
      ProgressGapAt(height, done, i);
    }
  }

  lemma {:induction false} ProgressGapAt(height: nat, done: nat, i: int)
    requires done <= height && 0 < i < |ProgressLog(height, done)|
    ensures var log := ProgressLog(height, done);
      log[i].rowsDone - log[i - 1].rowsDone <= 3
  {
    var front := ProgressLog(height, done - 1);
    var log := ProgressLog(height, done);
    if !Reports(done, height) {
      assert log == front;
      ProgressGapAt(height, done - 1, i);
    } else {
      assert log == front + [Report(done, EndsLine(done, height))];
      if i < |front| {
        ProgressGapAt(height, done - 1, i);
      }
      if 3 <= done - 1 {
        ProgressRecent(height, done - 1);
      }
      if 0 < |front| {
        ProgressEntry(height, done - 1, |front| - 1);
      }
      ProgressGapEnd(done, i, front, log, EndsLine(done, height));
    }
  }

  /** The gap step of `ProgressGapAt`, once a line for row `done` is appended to `front`. */
  lemma ProgressGapEnd(done: int, i: int, front: seq<Report>, log: seq<Report>, newline: bool)
    requires log == front + [Report(done, newline)]
    requires 0 < i < |log|
    requires i < |front| ==> front[i].rowsDone - front[i - 1].rowsDone <= 3
    requires 0 < |front| ==> 1 <= front[|front| - 1].rowsDone
    requires 0 < |front| && 3 <= done - 1 ==> done - 4 < front[|front| - 1].rowsDone
    ensures log[i].rowsDone - log[i - 1].rowsDone <= 3
  {
    if i < |front| {
      assert log[i] == front[i] && log[i - 1] == front[i - 1];
    } else {
      assert log[i].rowsDone == done && log[i - 1] == front[|front| - 1];
    }
  }

  /** The progress lines come in strictly increasing row order. */
  lemma ProgressIncreasing(height: nat, done: nat)
    requires done <= height
    ensures var log := ProgressLog(height, done);
      forall i, j :: 0 <= i < j < |log| ==> log[i].rowsDone < log[j].rowsDone
  {
    var log := ProgressLog(height, done);
    forall i, j | 0 <= i < j < |log|
      ensures log[i].rowsDone < log[j].rowsDone
    {
      ProgressIncreasingAt(height, done, i, j);
    }
  }

  lemma {:induction false} ProgressIncreasingAt(height: nat, done: nat, i: int, j: int)
    requires done <= height && 0 <= i < j < |ProgressLog(height, done)|
    ensures var log := ProgressLog(height, done);
      log[i].rowsDone < log[j].rowsDone
    decreases j - i
  {
    var log := ProgressLog(height, done);
    if i + 1 < j {
      ProgressIncreasingAt(height, done, i + 1, j);
    }
    ProgressEntry(height, done, i + 1);
  }

  /** The last row always reports, and its line is the only one ending the line. */
  lemma LastRowReports(height: nat)
    requires 0 < height
    ensures var log := ProgressLog(height, height);
      0 < |log| && log[|log| - 1] == Report(height, true) &&
      forall i :: 0 <= i < |log| - 1 ==> !log[i].newline
  {
    var front := ProgressLog(height, height - 1);
    var log := ProgressLog(height, height);
    assert log == front + [Report(height, true)];
    forall i | 0 <= i < |log| - 1
      ensures !log[i].newline
    {
      ProgressEntry(height, height - 1, i);
      assert log[i] == front[i];
    }
  }
}

=== FILE: samples.dfy ===
/**
 * The sample-count loop of `main`: `--samples=N`, `--samples N` or an
 * all-digit positional argument; the first argument of any of these forms
 * decides, values below 1 become 1, and with none of them the count is 4.
 */
module Samples {
  import opened Options
  import opened CString

  const DefaultSamples: int := 4
  const SamplesAssign: string := "--samples="
  const SamplesFlag: string := "--samples"

  /**
   * The text argument `i` hands to `atoi`, if it is one of the three forms,
   * tried in the order of the loop body.
   */
  function SampleTextAt(argv: seq<string>, i: nat): Option<string>
    requires i < |argv|
  {
    if HasPrefix(argv[i], SamplesAssign) then Some(argv[i][|SamplesAssign|..])
    else if argv[i] == SamplesFlag && i + 1 < |argv| then Some(argv[i + 1])
    else if DigitSpan(argv[i]) == |argv[i]| then Some(argv[i])
    else None
  }

  /** `if (samples < 1) samples = 1;` */
  function AtLeastOne(n: int): (r: int)
    ensures 1 <= r && r >= n
    ensures n >= 1 ==> r == n
    ensures n < 1 ==> r == 1
  {
    if n < 1 then 1 else n
  }

  /** The loop from index `i` on, with `samples` still at its default. */
  function SampleCountFrom(argv: seq<string>, i: nat): (r: int)
    ensures 1 <= r <= MaxInt32
    ensures (forall j :: i <= j < |argv| ==> SampleTextAt(argv, j).None?) ==> r == DefaultSamples
    ensures forall j :: i <= j < |argv| && SampleTextAt(argv, j).Some?
                     && (forall k :: i <= k < j ==> SampleTextAt(argv, k).None?)
                     ==> r == AtLeastOne(Atoi(SampleTextAt(argv, j).value))
    decreases |argv| - i
  {
    if i >= |argv| then DefaultSamples
    else match SampleTextAt(argv, i)
      case Some(text) => AtLeastOne(Atoi(text))
      case None => SampleCountFrom(argv, i + 1)
  }

  /** The sample count `main` passes to the renderer; `argv[0]` is skipped. */
  function SampleCount(argv: seq<string>): (r: int)
    ensures 1 <= r <= MaxInt32
    ensures (forall j :: 1 <= j < |argv| ==> SampleTextAt(argv, j).None?) ==> r == DefaultSamples
    ensures forall j :: 1 <= j < |argv| && SampleTextAt(argv, j).Some?
                     && (forall k :: 1 <= k < j ==> SampleTextAt(argv, k).None?)
                     ==> r == AtLeastOne(Atoi(SampleTextAt(argv, j).value))
  {
    SampleCountFrom(argv, 1)
  }

  /** A token is taken as positional exactly when it is all digits. */
  lemma PositionalIffAllDigits(argv: seq<string>, i: nat)
    requires i < |argv|
    requires !HasPrefix(argv[i], SamplesAssign) && argv[i] != SamplesFlag
    ensures SampleTextAt(argv, i).Some? <==> AllDigits(argv[i])
  {
    SpanCoversAllIffDigits(argv[i]);
  }

  /** Once an argument has decided the count, any arguments appended later change nothing. */
  lemma LaterArgumentsIgnored(argv: seq<string>, more: seq<string>, j: nat)
    requires 1 <= j < |argv| && SampleTextAt(argv, j).Some?
    requires forall k :: 1 <= k < j ==> SampleTextAt(argv, k).None?
    ensures SampleCount(argv + more) == SampleCount(argv)
  {
    var argv' := argv + more;
    forall k | 1 <= k <= j
      ensures SampleTextAt(argv', k) == SampleTextAt(argv, k)
    {
      assert argv'[k] == argv[k];
      if k + 1 < |argv| { assert argv'[k + 1] == argv[k + 1]; }
    }
  }

  /** `--samples=N` with N's decimal text gives N, whatever follows. */
  lemma AssignedCountRoundTrip(name: string, n: nat, rest: seq<string>)
    requires 1 <= n <= MaxInt32
    ensures SampleCount([name, SamplesAssign + NatText(n)] + rest) == n
  {
    var argv := [name, SamplesAssign + NatText(n)] + rest;
    assert argv[1][..|SamplesAssign|] == SamplesAssign;
    assert argv[1][|SamplesAssign|..] == NatText(n);
    AtoiNatText(n);
  }

  /** `--samples=-N` is read by `atoi` as `-N`, and the clamp turns it into 1. */
  lemma NegativeAssignedCountGivesOne(name: string, n: nat, rest: seq<string>)
    requires n <= MaxInt32 + 1
    ensures SampleCount([name, SamplesAssign + "-" + NatText(n)] + rest) == 1
  {
    var argv := [name, SamplesAssign + "-" + NatText(n)] + rest;
    assert argv[1][..|SamplesAssign|] == SamplesAssign;
    assert argv[1][|SamplesAssign|..] == "-" + NatText(n);
    AtoiNegatedNatText(n);
  }

  /** A non-empty all-digit token is read by the positional form. */
  lemma DigitTokenIsPositional(t: string)
    requires 0 < |t| && AllDigits(t)
    ensures !HasPrefix(t, SamplesAssign) && t != SamplesFlag && DigitSpan(t) == |t|
  {
    assert IsDigit(t[0]);
    assert SamplesAssign[0] == '-';
    SpanCoversAllIffDigits(t);
  }

  /** A positional decimal count N gives N, whatever follows. */
  lemma PositionalCountRoundTrip(name: string, n: nat, rest: seq<string>)
    requires 1 <= n <= MaxInt32
    ensures SampleCount([name, NatText(n)] + rest) == n
  {
    var argv := [name, NatText(n)] + rest;
    assert argv[1] == NatText(n);
    NatTextDigits(n);
    DigitTokenIsPositional(NatText(n));
    assert SampleTextAt(argv, 1) == Some(NatText(n));
    AtoiNatText(n);
  }

  /** The bare flag `--samples` at the end has no value; with nothing else the default stays. */
  lemma TrailingFlagKeepsDefault(name: string)
    ensures SampleCount([name, SamplesFlag]) == DefaultSamples
  {
    assert DigitSpan(SamplesFlag) == 0;
  }

  /** An empty argument is all digits, so it decides the count, and `atoi("")` is 0, clamped to 1. */
  lemma EmptyArgumentGivesOne(name: string)
    ensures SampleCount([name, ""]) == 1
  {
    assert Atoi("") == 0 by {
      AtoiOfDigits("");
    }
  }
}

=== FILE: tone.dfy ===
/**
 * `clamp` and `toInt` of the renderer: a linear colour channel is clamped
 * to [0, 1] and mapped to the nearest of the 256 byte levels (no gamma).
 */
module Tone {

  type Byte = b: int | 0 <= b < 256

  /** `clamp(x)`: 0 below 0, 1 above 1, `x` itself in between. */
  function Clamp(x: real): (r: real)
    ensures 0.0 <= r <= 1.0
    ensures 0.0 <= x <= 1.0 ==> r == x
    ensures x < 0.0 ==> r == 0.0
    ensures x > 1.0 ==> r == 1.0
  {
    if x < 0.0 then 0.0 else if x > 1.0 then 1.0 else x
  }

  lemma ClampIdempotent(x: real)
    ensures Clamp(Clamp(x)) == Clamp(x)
  {
  }

  /**
   * `toInt(x)`, that is `int(clamp(x) * 255 + .5)`; the operand is never
   * negative, so truncation toward zero is the floor. The result is
   * `255 * clamp(x)` rounded to the nearest integer, halves rounding up.
   */
  function ToInt(x: real): (r: Byte)
    ensures x <= 0.0 ==> r == 0
    ensures x >= 1.0 ==> r == 255
    ensures r as real - 0.5 <= Clamp(x) * 255.0 < r as real + 0.5
  {
    (Clamp(x) * 255.0 + 0.5).Floor
  }

  lemma FloorMonotone(a: real, b: real)
    requires a <= b
    ensures a.Floor <= b.Floor
  {
  }

  /** A larger channel value never gives a smaller byte. */
  lemma ToIntMonotone(x: real, y: real)
    requires x <= y
    ensures ToInt(x) <= ToInt(y)
  {
    FloorMonotone(Clamp(x) * 255.0 + 0.5, Clamp(y) * 255.0 + 0.5);
  }

  /** The channel value one byte level stands for. */
  function Level(b: Byte): (c: real)
    ensures 0.0 <= c <= 1.0
  {
    b as real / 255.0
  }

  /** Round trip: every byte level is encoded as itself. */
  lemma ToIntOfLevel(b: Byte)
    ensures ToInt(Level(b)) == b
  {
    assert Clamp(Level(b)) * 255.0 == b as real;
  }
}

=== FILE: vecparse.dfy ===
/**
 * `parseVec3`: three numbers separated by commas and/or white space,
 * read by three successive `strtod` calls over a copy of the text in
 * which every ',' has become ' '.
 */
module VecParse {
  import opened Options
  import opened CString
  import opened Vector

  /** The mutable copy `tmp` after its separators are normalised. */
  function CommasToSpaces(s: string): (t: string)
    ensures |t| == |s|
    ensures forall i :: 0 <= i < |t| ==> t[i] != ','
    ensures forall i :: 0 <= i < |s| && s[i] != ',' ==> t[i] == s[i]
    ensures forall i :: 0 <= i < |s| && s[i] == ',' ==> t[i] == ' '
  {
    seq(|s|, i requires 0 <= i < |s| => if s[i] == ',' then ' ' else s[i])
  }

  /** The vector read and the position where the third number ends. */
  datatype Scan = Scan(v: Vec, end: nat)

  /** The three successive `strtod` calls; each must consume something. */
  function ScanVec3(t: string): (r: Option<Scan>)
    ensures r.Some? ==> r.value.end <= |t|
  {
    match Strtod(t, 0)
    case None => None
    case Some(x) =>
      match Strtod(t, x.end)
      case None => None
      case Some(y) =>
        match Strtod(t, y.end)
        case None => None
        case Some(z) => Some(Scan(Vec(x.value, y.value, z.value), z.end))
  }

  /** `parseVec3(s, out)`: `None` for a null `s` or when it returns false, else the vector it stores. */
  function ParseVec3(s: Option<string>): Option<Vec> {
    match s
    case None => None
    case Some(text) =>
      match ScanVec3(CommasToSpaces(text))
      case None => None
      case Some(sc) => Some(sc.v)
  }

  /** The result of `parseVec3(s, out)` and the value `out` holds afterwards. */
  datatype Outcome = Outcome(ok: bool, out: Vec)

  function ParseVec3Into(s: Option<string>, out: Vec): (r: Outcome)
    ensures r.ok <==> ParseVec3(s).Some?
    ensures r.ok ==> Some(r.out) == ParseVec3(s)
    ensures !r.ok ==> r.out == out
  {
    match ParseVec3(s)
    case None => Outcome(false, out)
    case Some(v) => Outcome(true, v)
  }

  predicate IsSeparator(c: char) { c == ',' || c == ' ' }

  /** A ',' and a ' ' are interchangeable anywhere in the text. */
  lemma CommaActsAsSpace(s: string, s': string)
    requires |s| == |s'|
    requires forall i :: 0 <= i < |s| ==> s[i] == s'[i] || (IsSeparator(s[i]) && IsSeparator(s'[i]))
    ensures ParseVec3(Some(s)) == ParseVec3(Some(s'))
  {
    assert CommasToSpaces(s) == CommasToSpaces(s');
  }

  /** The scans give the same vector on any text that agrees up to the third number's end and does not continue it there. */
  lemma ScanAgrees(t: string, t': string)
    requires ScanVec3(t).Some?
    requires HoldsAt(t, 0, ScanVec3(t).value.end, t')
    ensures ScanVec3(t') == ScanVec3(t)
  {
    var x := Strtod(t, 0).value;
    var y := Strtod(t, x.end).value;
    var z := Strtod(t, y.end).value;
    HoldsWithin(t, 0, z.end, t', 0, x.end);
    StrtodAgrees(t, 0, t');
    HoldsWithin(t, 0, z.end, t', x.end, y.end);
    StrtodAgrees(t, x.end, t');
    HoldsWithin(t, 0, z.end, t', y.end, z.end);
    StrtodAgrees(t, y.end, t');
  }

  /** Text after the third number is ignored, provided it does not continue that number. */
  lemma ScanIgnoresTrailingText(t: string, u: string)
    requires ScanVec3(t).Some?
    requires u == [] || !ContinuesNumber(u[0])
    ensures ScanVec3(t[..ScanVec3(t).value.end] + u) == ScanVec3(t)
  {
    var e := ScanVec3(t).value.end;
    var t' := t[..e] + u;
    assert forall j :: 0 <= j < e ==> t'[j] == t[j];
    if u != [] {
      assert t'[e] == u[0];
    }
    ScanAgrees(t, t');
  }

  /** `parseVec3` ignores any text after the third number that does not continue it. */
  lemma ParseIgnoresTrailingText(s: string, u: string)
    requires ScanVec3(CommasToSpaces(s)).Some?
    requires u == [] || !ContinuesNumber(u[0])
    ensures ParseVec3(Some(s[..ScanVec3(CommasToSpaces(s)).value.end] + u)) == ParseVec3(Some(s))
  {
    var t := CommasToSpaces(s);
    var e := ScanVec3(t).value.end;
    assert CommasToSpaces(s[..e] + u) == t[..e] + CommasToSpaces(u);
    ScanIgnoresTrailingText(t, CommasToSpaces(u));
  }

  lemma CommasToSpacesAppend(u: string, v: string)
    ensures CommasToSpaces(u + v) == CommasToSpaces(u) + CommasToSpaces(v)
  {
  }

  lemma IntTextHasNoComma(n: int)
    ensures CommasToSpaces(IntText(n)) == IntText(n)
  {
    var t := IntText(n);
    IntTextShape(n);
    assert forall i :: 0 <= i < |t| ==> t[i] != ',' by {
      forall i | 0 <= i < |t| ensures t[i] != ',' {
        if i > 0 { assert IsDigit(t[i]); }
      }
    }
  }

  lemma ScanOfThreeNumbers(t: string, x: real, y: real, z: real, px: nat, py: nat)
    requires Strtod(t, 0) == Some(Number(x, px))
    requires Strtod(t, px) == Some(Number(y, py))
    requires Strtod(t, py) == Some(Number(z, |t|))
    ensures ScanVec3(t) == Some(Scan(Vec(x, y, z), |t|))
  {
  }

  /** The separator-normalised text "a b c" of three integers. */
  function TripleText(a: int, b: int, c: int): string {
    IntText(a) + " " + IntText(b) + " " + IntText(c)
  }

  /** Where the three parts and the two spaces lie in `x + " " + y + " " + z`. */
  lemma SpacedParts(x: string, y: string, z: string)
    ensures var t, px, py := x + " " + y + " " + z, |x|, |x| + 1 + |y|;
      && |t| == py + 1 + |z|
      && t[0..px] == x && t[px] == ' '
      && t[px + 1..py] == y && t[py] == ' '
      && t[py + 1..|t|] == z
  {
    var t := x + " " + y + " " + z;
    assert t == (x + " ") + (y + " ") + z;
    assert t[|x| + 1..|t|] == (y + " ") + z;
    assert t[|x| + 1..|x| + 1 + |y|] == y;
  }

  /** The layout of `TripleText(a, b, c)`: the text of `a`, a space, the text of `b`, a space, the text of `c`. */
  predicate SpacedTriple(t: string, a: int, b: int, c: int, pa: nat, pb: nat) {
    && pa == |IntText(a)| && pb == pa + 1 + |IntText(b)| && |t| == pb + 1 + |IntText(c)|
    && t[0..pa] == IntText(a) && t[pa] == ' '
    && t[pa + 1..pb] == IntText(b) && t[pb] == ' '
    && t[pb + 1..|t|] == IntText(c)
  }

  /** Where the three integers and the two spaces lie in `TripleText(a, b, c)`. */
  lemma TripleParts(a: int, b: int, c: int)
    ensures SpacedTriple(TripleText(a, b, c), a, b, c, |IntText(a)|, |IntText(a)| + 1 + |IntText(b)|)
  {
    SpacedParts(IntText(a), IntText(b), IntText(c));
  }

  lemma SpacedFirst(t: string, a: int, b: int, c: int, pa: nat, pb: nat)
    requires SpacedTriple(t, a, b, c, pa, pb)
    ensures Strtod(t, 0) == Some(Number(a as real, pa))
  {
    StrtodReadsIntText(t, 0, 0, a);
  }

  lemma SpacedSecond(t: string, a: int, b: int, c: int, pa: nat, pb: nat)
    requires SpacedTriple(t, a, b, c, pa, pb)
    ensures pa < |t| && Strtod(t, pa) == Some(Number(b as real, pb))
  {
    StrtodReadsSpacedIntText(t, pa, b);
  }

  lemma SpacedThird(t: string, a: int, b: int, c: int, pa: nat, pb: nat)
    requires SpacedTriple(t, a, b, c, pa, pb)
    ensures pb < |t| && Strtod(t, pb) == Some(Number(c as real, |t|))
  {
    StrtodReadsSpacedIntText(t, pb, c);
  }

  /** The three scans read back the integers of the text "a b c". */
  lemma ScanIntTriple(a: int, b: int, c: int)
    ensures ScanVec3(TripleText(a, b, c)) == Some(Scan(Vec(a as real, b as real, c as real), |TripleText(a, b, c)|))
  {
    var t := TripleText(a, b, c);
    var pa := |IntText(a)|;
    var pb := pa + 1 + |IntText(b)|;
    TripleParts(a, b, c);
    SpacedFirst(t, a, b, c, pa, pb);
    SpacedSecond(t, a, b, c, pa, pb);
    SpacedThird(t, a, b, c, pa, pb);
    ScanOfThreeNumbers(t, a as real, b as real, c as real, pa, pb);
  }

  /** Round trip: the text "a,b,c" of three integers parses back to the vector (a, b, c). */
  lemma ParseIntTriple(a: int, b: int, c: int)
    ensures ParseVec3(Some(IntText(a) + "," + IntText(b) + "," + IntText(c)))
         == Some(Vec(a as real, b as real, c as real))
  {
    var ta, tb, tc := IntText(a), IntText(b), IntText(c);
    IntTextHasNoComma(a);
    IntTextHasNoComma(b);
    IntTextHasNoComma(c);
    CommasToSpacesAppend(ta + "," + tb + ",", tc);
    CommasToSpacesAppend(ta + "," + tb, ",");
    CommasToSpacesAppend(ta + ",", tb);
    CommasToSpacesAppend(ta, ",");
    assert CommasToSpaces(",") == " ";
    assert CommasToSpaces(ta + "," + tb + "," + tc) == TripleText(a, b, c);
    ScanIntTriple(a, b, c);
  }

  /** The example in the comment above `parseVec3`: "1.0, -2.5, 3" gives (1, -2.5, 3). */
  lemma ParseDocumentedExample()
    ensures ParseVec3(Some("1.0, -2.5, 3")) == Some(Vec(1.0, -2.5, 3.0))
  {
    var t := CommasToSpaces("1.0, -2.5, 3");
    assert t == "1.0  -2.5  3";
    ExampleFirst(t);
    ExampleSecond(t);
    ExampleThird(t);
    ScanOfThreeNumbers(t, 1.0, -2.5, 3.0, 3, 9);
  }

  /** The three `strtod` reads over the example once its commas are spaces. */
  lemma ExampleFirst(t: string)
    requires t == "1.0  -2.5  3"
    ensures Strtod(t, 0) == Some(Number(1.0, 3))
  {
    assert NatText(1) == "1" && FractionValue("0") == 0.0;
    assert t[0..1] == "1" && t[2..3] == "0";
    StrtodReadsDecimal(t, 0, 0, false, 1, "0");
  }

  lemma ExampleSecond(t: string)
    requires t == "1.0  -2.5  3"
    ensures Strtod(t, 3) == Some(Number(-2.5, 9))
  {
    assert NatText(2) == "2" && FractionValue("5") == 0.5;
    assert t[6..7] == "2" && t[8..9] == "5";
    StrtodReadsDecimal(t, 3, 2, true, 2, "5");
  }

  lemma ExampleThird(t: string)
    requires t == "1.0  -2.5  3"
    ensures Strtod(t, 9) == Some(Number(3.0, 12))
  {
    assert IntText(3) == "3";
    assert t[11..12] == "3";
    StrtodReadsIntText(t, 9, 2, 3);
  }
}

=== FILE: vector.dfy ===
/**
 * The `Vec` value type: three components used as a point, a direction or
 * a linear RGB colour. Components are exact reals standing for the C++
 * `double`s, so the algebraic identities below hold exactly.
 */
module Vector {

  /** `Vec(x_=0.0, y_=0.0, z_=0.0)`: the one constructor, also the default constructor. */
  datatype Vec = Vec(x: real := 0.0, y: real := 0.0, z: real := 0.0)

  /** The const `operator[]`: components 0, 1 and 2, and 0.0 for any other index. */
  function Index(v: Vec, i: int): real {
    if i == 0 then v.x else if i == 1 then v.y else if i == 2 then v.z else 0.0
  }

  /** Two vectors are equal exactly when every index reads the same value. */
  lemma IndexDeterminesVec(a: Vec, b: Vec)
    ensures a == b <==> forall i :: Index(a, i) == Index(b, i)
  {
    if forall i :: Index(a, i) == Index(b, i) {
      assert Index(a, 0) == Index(b, 0);
      assert Index(a, 1) == Index(b, 1);
      assert Index(a, 2) == Index(b, 2);
    }
  }

  /** Each constructor argument is read back at its index; the default constructor reads 0.0 everywhere. */
  lemma IndexOfConstructor(x: real, y: real, z: real)
    ensures Index(Vec(x, y, z), 0) == x && Index(Vec(x, y, z), 1) == y && Index(Vec(x, y, z), 2) == z
    ensures forall i :: Index(Vec(), i) == 0.0
  {
  }

  /** `operator+` */
  function Add(a: Vec, b: Vec): (r: Vec)
    ensures forall i :: Index(r, i) == Index(a, i) + Index(b, i)
  {
    Vec(a.x + b.x, a.y + b.y, a.z + b.z)
  }

  /** `operator-`: the inverse of adding `b`. */
  function Sub(a: Vec, b: Vec): (r: Vec)
    ensures forall i :: Index(r, i) == Index(a, i) - Index(b, i)
    ensures Add(r, b) == a
  {
    Vec(a.x - b.x, a.y - b.y, a.z - b.z)
  }

  /** `operator*(double)`: scaling by a scalar. */
  function Scale(a: Vec, s: real): (r: Vec)
    ensures forall i :: Index(r, i) == Index(a, i) * s
  {
    Vec(a.x * s, a.y * s, a.z * s)
  }

  /** `mult`: the componentwise product. */
  function Mult(a: Vec, b: Vec): (r: Vec)
    ensures forall i :: Index(r, i) == Index(a, i) * Index(b, i)
  {
    Vec(a.x * b.x, a.y * b.y, a.z * b.z)
  }

  /** `dot` */
  function Dot(a: Vec, b: Vec): (r: real)
    ensures r == Index(a, 0) * Index(b, 0) + Index(a, 1) * Index(b, 1) + Index(a, 2) * Index(b, 2)
  {
    a.x * b.x + a.y * b.y + a.z * b.z
  }

  /** `cross`: orthogonal to both of its operands. */
  function Cross(a: Vec, b: Vec): (r: Vec)
    ensures Dot(r, a) == 0.0 && Dot(r, b) == 0.0
  {
    var r := Vec(a.y * b.z - a.z * b.y, a.z * b.x - a.x * b.z, a.x * b.y - a.y * b.x);
    CrossOrthogonal(a, b, r);
    r
  }

  /** `operator%`: a second spelling of the cross product. */
  function CrossOp(a: Vec, b: Vec): (r: Vec)
    ensures r == Cross(a, b)
  {
    Vec(a.y * b.z - a.z * b.y, a.z * b.x - a.x * b.z, a.x * b.y - a.y * b.x)
  }

  lemma CrossOrthogonal(a: Vec, b: Vec, r: Vec)
    requires r == Vec(a.y * b.z - a.z * b.y, a.z * b.x - a.x * b.z, a.x * b.y - a.y * b.x)
    ensures Dot(r, a) == 0.0 && Dot(r, b) == 0.0
  {
    assert Dot(r, a) == a.x * a.y * b.z - a.x * a.z * b.y + a.y * a.z * b.x - a.y * a.x * b.z + a.z * a.x * b.y - a.z * a.y * b.x;
    assert Dot(r, b) == b.x * a.y * b.z - b.x * a.z * b.y + b.y * a.z * b.x - b.y * a.x * b.z + b.z * a.x * b.y - b.z * a.y * b.x;
  }

  /** The determinant of the matrix with rows `a`, `b` and `c`, expanded along `a`. */
  function Det(a: Vec, b: Vec, c: Vec): real {
    a.x * (b.y * c.z - b.z * c.y) - a.y * (b.x * c.z - b.z * c.x) + a.z * (b.x * c.y - b.y * c.x)
  }

  /** The scalar triple product: `dot(cross(a, b), c)` is the determinant of `a`, `b`, `c`. */
  lemma CrossTriple(a: Vec, b: Vec, c: Vec)
    ensures Dot(Cross(a, b), c) == Det(a, b, c)
  {
  }

  /** The triple products with the three axes are the components of `cross`, which they therefore determine. */
  lemma CrossByTriple(a: Vec, b: Vec, r: Vec)
    requires forall c: Vec :: Dot(r, c) == Det(a, b, c)
    ensures r == Cross(a, b)
  {
    assert Dot(r, Vec(1.0, 0.0, 0.0)) == Det(a, b, Vec(1.0, 0.0, 0.0));
    assert Dot(r, Vec(0.0, 1.0, 0.0)) == Det(a, b, Vec(0.0, 1.0, 0.0));
    assert Dot(r, Vec(0.0, 0.0, 1.0)) == Det(a, b, Vec(0.0, 0.0, 1.0));
  }

  /** The default constructor is the identity of addition. */
  lemma AddZero(a: Vec)
    ensures Add(a, Vec()) == a
  {
  }

  lemma DotSymmetric(a: Vec, b: Vec)
    ensures Dot(a, b) == Dot(b, a)
  {
  }

  /** The cross product is anti-commutative. */
  lemma CrossAntiCommutative(a: Vec, b: Vec)
    ensures Cross(a, b) == Scale(Cross(b, a), -1.0)
  {
  }
}
